=== FILE: README.md ===
# TrackMyFunds: a verified model of its screens' logic

TrackMyFunds is an Android personal-finance app. This project models the logic inside five of its screens, in Dafny, and proves properties about that logic:

- **Sign-up.** Field validation, the password-strength score and its helper text, and the single stored account that a sign-up writes.
- **Login.** Field validation, the credential check against the stored account, the `isLoggedIn` session flag, and the start-up shortcut for a user who is already logged in.
- **Transactions.** The list of stored records, optionally filtered by type and sorted newest first. Deleting a record and adjusting the monthly budget.
- **Dashboard.** The five most recent records and the budget, shown by the main screen.
- **Analysis.** Per-category totals of Income and Expense records, and the bar charts drawn from them.

The app keeps its state in one preference store (`TrackMyFundsPrefs`), modelled as the class `Preferences.Store`:

- a set of transaction records;
- a monthly budget, where an unset budget reads as 0;
- the account's email, username and password;
- the registration and last-login dates;
- the current user;
- the `isLoggedIn` flag.

A transaction record is one string, `type|description|date|amount|category`.

Modules:

- **`Text`** defines:
  - Kotlin's `split`, including its empty parts;
  - Kotlin's string order `compareTo` on text within the Basic Multilingual Plane, as `LexLeq`/`LexLess`, proved to be a total order;
  - ASCII character classes.
- **`Amounts`** reads an amount string as an exact number. This stands in for `toFloat`.
- **`Records`** holds:
  - access to the record layout;
  - the type filter;
  - the stable newest-first sort that `sortedByDescending` performs;
  - decoding of a whole list.
- **`Forms`** holds the field verdict and the email and username patterns.

The screens' own modules are `Signup`, `Login`, `Transactions`, `Dashboard` (the main screen) and `Analysis`.

Where the app would crash, the model returns an error instead, of type `Records.Fault`:

- `MissingField`: a record has too few `|`-separated parts.
- `BadAmount`: an amount does not parse.

A delete that crashes writes nothing, because the editor's `apply()` is never reached. A `HashSet` has no defined iteration order, so every function over the stored records takes that order as a parameter, `order`. The methods on the store choose one with `Preferences.Enumerate`. Each result is specified for every possible order.

## Model

| member | source | states |
|---|---|---|
| Text.Split | main/java/com/example/trackmyfunds/TransactionsActivity.kt:120-123 | defines Kotlin's `split` on one delimiter, which always yields at least one part; `Text.SplitParts`, `Text.JoinSplit` and `Text.SplitJoin` carry its properties |
| Text.SplitParts | main/java/com/example/trackmyfunds/TransactionsActivity.kt:120-123 | splitting on the separator gives one more part than there are separators, empty parts included, and no part contains a separator |
| Text.JoinSplit | main/java/com/example/trackmyfunds/TransactionsActivity.kt:123 | splitting a string and joining the parts again gives the string back |
| Text.SplitJoin | main/java/com/example/trackmyfunds/TransactionsActivity.kt:123 | joining separator-free parts and splitting again gives the parts back |
| Text.SplitWithoutDelimiter | main/java/com/example/trackmyfunds/TransactionsActivity.kt:123 | a string without the separator splits into itself alone |
| Text.SplitAfterPart | main/java/com/example/trackmyfunds/TransactionsActivity.kt:123 | a separator-free leading part is the first split part, and the rest splits on its own |
| Text.LexLeq | main/java/com/example/trackmyfunds/TransactionsActivity.kt:121 | defines the string order that compares dates (Kotlin's `compareTo`, on text within the Basic Multilingual Plane); the `Text.LexLeq…` lemmas prove it a total order |
| Text.LexLeqReflexive | main/java/com/example/trackmyfunds/TransactionsActivity.kt:121 | the string order used to sort dates is reflexive |
| Text.LexLeqTotal | main/java/com/example/trackmyfunds/TransactionsActivity.kt:121 | any two dates are comparable |
| Text.LexLeqAntisymmetric | main/java/com/example/trackmyfunds/TransactionsActivity.kt:121 | two dates that are each ≤ the other are equal |
| Text.LexLeqTransitive | main/java/com/example/trackmyfunds/TransactionsActivity.kt:121 | the date order is transitive |
| Text.LexLeqNotLess | main/java/com/example/trackmyfunds/TransactionsActivity.kt:121 | if a ≤ b then b is not strictly before a |
| Amounts.ParseAmount | main/java/com/example/trackmyfunds/TransactionsActivity.kt:128 | `toFloat` of the amount part: the empty string fails, and an unsigned amount is never negative |
| Amounts.ParseDigits | main/java/com/example/trackmyfunds/TransactionsActivity.kt:128 | a string of digits reads as the number it spells |
| Amounts.NatTextRoundTrip | main/java/com/example/trackmyfunds/TransactionsActivity.kt:128 | writing a whole number in decimal and reading it back gives the same number |
| Records.AmountOf | main/java/com/example/trackmyfunds/TransactionsActivity.kt:128 | defines reading part 3 as the amount: a missing part is a `MissingField` fault and an unreadable numeral a `BadAmount` fault; `Transactions.DecodeItem` states it |
| Records.KeepType | main/java/com/example/trackmyfunds/TransactionsActivity.kt:120 | defines the type filter, keeping the original order; `Records.KeepTypeCount` and the three lemmas after it carry its properties |
| Records.KeepTypeCount | main/java/com/example/trackmyfunds/TransactionsActivity.kt:120 | the type filter keeps each record that matches, as often as it occurs, and drops every other record; with no filter it keeps all |
| Records.KeepTypeMembers | main/java/com/example/trackmyfunds/TransactionsActivity.kt:120 | a record is kept exactly when it is stored and matches the filter |
| Records.KeepTypeEmpty | main/java/com/example/trackmyfunds/TransactionsActivity.kt:120 | nothing is kept exactly when no stored record matches the filter |
| Records.KeepTypeAppend | main/java/com/example/trackmyfunds/TransactionsActivity.kt:120 | each record is filtered on its own: filtering a concatenation concatenates the results |
| Records.InsertByDate | main/java/com/example/trackmyfunds/TransactionsActivity.kt:121 | inserting one record into the sorted list adds exactly that record |
| Records.SortNewestFirst | main/java/com/example/trackmyfunds/TransactionsActivity.kt:121 | the sort's result is a permutation of its input |
| Records.InsertKeepsNewestFirst | main/java/com/example/trackmyfunds/TransactionsActivity.kt:121 | inserting a record into a newest-first list keeps it newest first |
| Records.SortIsNewestFirst | main/java/com/example/trackmyfunds/TransactionsActivity.kt:121 | the sorted list's dates do not increase |
| Records.SortedByDescendingDate | main/java/com/example/trackmyfunds/TransactionsActivity.kt:121 | defines the newest-first sort on the date part, which leaves a list of fewer than two records alone; `Records.SortedByDescendingDateSpec` carries its properties |
| Records.SortedByDescendingDateSpec | main/java/com/example/trackmyfunds/TransactionsActivity.kt:121 | `sortedByDescending { date }` returns a permutation with the same members, ordered newest first |
| Records.DecodeAll | main/java/com/example/trackmyfunds/TransactionsActivity.kt:122-132 | decoding a list succeeds exactly when every record decodes. The items then correspond one to one with the records; otherwise the error is the error of some record |
| Preferences.Enumerate | main/java/com/example/trackmyfunds/TransactionsActivity.kt:118 | reading the stored set visits every record exactly once, in some order |
| Transactions.DecodeItem | main/java/com/example/trackmyfunds/TransactionsActivity.kt:122-131 | an item is built exactly when the amount part parses. It keeps the raw string, takes its type, description and date from parts 0–2, and its amount from part 3. A record with fewer than four parts is a missing-field fault |
| Transactions.Listing | main/java/com/example/trackmyfunds/TransactionsActivity.kt:116-132 | defines the listing for one iteration order of the stored set; `Transactions.ListingIsSortedSelection` and `Transactions.ListingFailsOnBadRecord` carry its properties |
| Transactions.SortAndDecode | main/java/com/example/trackmyfunds/TransactionsActivity.kt:121-132 | defines sorting the selected records and decoding each; `Transactions.SortAndDecodeSpec` carries its properties |
| Transactions.ListingFailsOnBadRecord | main/java/com/example/trackmyfunds/TransactionsActivity.kt:116-132 | the listing is produced exactly when every selected record's amount can be read. Otherwise some selected record causes the reported fault |
| Transactions.ListingIsSortedSelection | main/java/com/example/trackmyfunds/TransactionsActivity.kt:116-132 | the listed items are exactly the records that match the filter, each as often as it occurs. They are ordered newest first, and each item is its own record decoded |
| Transactions.SortAndDecodeSpec | main/java/com/example/trackmyfunds/TransactionsActivity.kt:121-132 | sorting and decoding the selected records rearranges them (same records, same multiplicities) newest first, each row decoded from its own record |
| Transactions.EmptyStateSpec | main/java/com/example/trackmyfunds/TransactionsActivity.kt:116-134 | the empty state shows exactly when no stored record matches the filter |
| Transactions.DeletedRecordIsNotListed | main/java/com/example/trackmyfunds/TransactionsActivity.kt:163-168 | a record that is not in the store (for instance one just deleted) appears in no listing |
| Transactions.DisplayTransactions | main/java/com/example/trackmyfunds/TransactionsActivity.kt:116-134 | over the stored set: the list shows each stored record that matches the filter once, newest first, each decoded from its record. It fails exactly when a selected amount is unreadable, and it is empty exactly when nothing matches |
| Transactions.DeleteTransaction | main/java/com/example/trackmyfunds/TransactionsActivity.kt:163-184 | see the note after this table |
| Dashboard.DecodeDashboardItem | main/java/com/example/trackmyfunds/MainActivity.kt:123 | a dashboard row is built exactly when parts 0–3 exist and the amount parses, and its fields are those parts |
| Dashboard.RecentRecords | main/java/com/example/trackmyfunds/MainActivity.kt:120-122 | defines the kept records, the first five after the newest-first sort; `Dashboard.RecentRecordsAreNewest` and `Dashboard.OmittedRecordsAreOlder` carry its properties |
| Dashboard.RecentTransactions | main/java/com/example/trackmyfunds/MainActivity.kt:117-124 | defines the recent list for one iteration order; `Dashboard.RecentTransactionsSpec` and `Dashboard.RecentTransactionsFailure` carry its properties |
| Dashboard.RecentRecordsAreNewest | main/java/com/example/trackmyfunds/MainActivity.kt:118-122 | the recent records are min(5, stored) of the stored records, ordered newest first |
| Dashboard.OmittedRecordsAreOlder | main/java/com/example/trackmyfunds/MainActivity.kt:121-122 | no record left out of the recent list is newer than any record in it |
| Dashboard.RecentTransactionsSpec | main/java/com/example/trackmyfunds/MainActivity.kt:117-127 | there are min(5, stored) rows, newest first, each decoded from a stored record, and no omitted record is strictly newer than any row |
| Dashboard.RecentTransactionsFailure | main/java/com/example/trackmyfunds/MainActivity.kt:118-124 | the recent list is built exactly when every record has a date part (with two or more records, since the sort compares them) and each of the five shown records has a readable amount |
| Preferences.Store.Budget | main/java/com/example/trackmyfunds/MainActivity.kt:113-114 | defines the budget read, 0 when never set; `Dashboard.UpdateDashboard` states it |
| Dashboard.RecentTransactionsReadable | main/java/com/example/trackmyfunds/MainActivity.kt:117-124 | when every record has a readable amount, the recent list is built |
| Dashboard.RecentTransactionsFault | main/java/com/example/trackmyfunds/MainActivity.kt:117-124 | a recent list that fails reports the fault of one of the records: a missing part or an unreadable amount |
| Dashboard.UpdateDashboard | main/java/com/example/trackmyfunds/MainActivity.kt:108-127 | over the stored set: the budget is the stored one, or 0 when unset. The recent list is built whenever every stored amount is readable, and a failure is the fault of some stored record. The rows come from distinct stored records (a sub-multiset of the store) and have the properties of `RecentTransactionsSpec`; the store is not written |
| Analysis.AddToGroups | main/java/com/example/trackmyfunds/AnalysisActivity.kt:69 | defines one step of the grouping; `Analysis.AddToGroupsKeys` and `Analysis.AddToGroupsAmounts` carry its properties |
| Analysis.GroupByCategory | main/java/com/example/trackmyfunds/AnalysisActivity.kt:69 | defines the grouping by category part; `Analysis.GroupByCategorySpec` carries its properties |
| Analysis.CategorySums | main/java/com/example/trackmyfunds/AnalysisActivity.kt:64-75 | defines the per-category totals of one type; `Analysis.CategorySumsSpec` and `Analysis.CategorySumsFailure` carry its properties |
| Analysis.Keys | main/java/com/example/trackmyfunds/AnalysisActivity.kt:69 | the keys of the grouped map, in their order |
| Analysis.AddToGroupsKeys | main/java/com/example/trackmyfunds/AnalysisActivity.kt:69 | a record with a known category joins that group; a new category becomes the last key |
| Analysis.AddToGroupsAmounts | main/java/com/example/trackmyfunds/AnalysisActivity.kt:69 | adding a record appends its amount under its own category and changes no other category |
| Analysis.GroupByCategorySpec | main/java/com/example/trackmyfunds/AnalysisActivity.kt:67-69 | `groupBy { it[4] }` has each category of the records exactly once, holding the amounts of exactly the records of that category |
| Analysis.AmountsOfAt | main/java/com/example/trackmyfunds/AnalysisActivity.kt:70 | with distinct keys, looking up a group's key finds that group's amounts |
| Analysis.AddToGroupsTotal | main/java/com/example/trackmyfunds/AnalysisActivity.kt:70 | adding a record raises the sum of all category totals by its amount |
| Analysis.GroupedTotal | main/java/com/example/trackmyfunds/AnalysisActivity.kt:67-70 | the category totals add up to the total amount of the grouped records |
| Analysis.CategorySumsSpec | main/java/com/example/trackmyfunds/AnalysisActivity.kt:67-75 | the map for one type has as keys exactly the categories of that type's records, each once. Each value is the sum of that category's amounts, and the values add up to the type's total |
| Analysis.CategorySumsFailure | main/java/com/example/trackmyfunds/AnalysisActivity.kt:67-75 | the map for one type is built exactly when every record of that type has a category and a readable amount. A missing part is reported before an unreadable amount |
| Analysis.SetupBarChart | main/java/com/example/trackmyfunds/AnalysisActivity.kt:83-96 | defines the bars and labels drawn from one map; `Analysis.ChartSpec` carries its properties |
| Analysis.BarCharts | main/java/com/example/trackmyfunds/AnalysisActivity.kt:62-81 | defines both charts for one iteration order; `Analysis.BarChartsFailure`, `Analysis.EmptyCharts` and `Analysis.OtherTypesIgnored` carry its properties |
| Analysis.EmptyCharts | main/java/com/example/trackmyfunds/AnalysisActivity.kt:62-81 | with no Income or Expense record (an empty store included), both charts are empty |
| Analysis.OtherTypesIgnored | main/java/com/example/trackmyfunds/AnalysisActivity.kt:67-75 | a record whose type is neither Income nor Expense changes neither chart, wherever it is read |
| Analysis.BarChartsFailure | main/java/com/example/trackmyfunds/AnalysisActivity.kt:62-81 | both charts are drawn exactly when every Income and Expense record has a category and a readable amount |
| Analysis.ChartSpec | main/java/com/example/trackmyfunds/AnalysisActivity.kt:83-96 | see the note after this table |
| Analysis.DisplayBarCharts | main/java/com/example/trackmyfunds/AnalysisActivity.kt:62-81 | over the stored set: the charts are drawn exactly when every Income and Expense record is well formed, and then each chart has the properties of `ChartSpec` |
| Forms.EmailAddress | main/java/com/example/trackmyfunds/SignupActivity.kt:41 | defines Android's email pattern matched against the whole field; `Signup.ValidateEmail` and `Login.ValidateEmail` use it |
| Forms.UsernamePattern | main/java/com/example/trackmyfunds/SignupActivity.kt:42 | defines the username pattern `^[a-zA-Z0-9_]+$`; `Signup.ValidateUsername` uses it |
| Signup.ValidateEmail | main/java/com/example/trackmyfunds/SignupActivity.kt:114-133 | accepts exactly a well-formed email that is not the registered one. Errors come in order: "Email is required", "Invalid email format", "Email already registered" |
| Signup.ValidateUsername | main/java/com/example/trackmyfunds/SignupActivity.kt:135-158 | accepts exactly a name of at least 3 characters from `[a-zA-Z0-9_]` that is not the registered one. Each message is reported exactly when its check is the first to fail: "Username is required", the length error, the character error, then "Username already taken" |
| Signup.ValidatePassword | main/java/com/example/trackmyfunds/SignupActivity.kt:160-198 | accepts exactly a password of at least 8 characters with an uppercase letter, a lowercase letter, a digit and a special character. Each message is reported exactly when its check is the first to fail |
| Signup.ValidateConfirmPassword | main/java/com/example/trackmyfunds/SignupActivity.kt:200-215 | accepts exactly a non-empty confirmation equal to the password; an empty one is reported before a mismatch |
| Signup.CriteriaMet | main/java/com/example/trackmyfunds/SignupActivity.kt:229-238 | defines how many of the five criteria a password meets; `Signup.CalculatePasswordStrength` ties the score to it |
| Signup.CalculatePasswordStrength | main/java/com/example/trackmyfunds/SignupActivity.kt:229-238 | the score is 20 points per criterion met, so it is a multiple of 20 from 0 to 100 |
| Signup.StrengthLabel | main/java/com/example/trackmyfunds/SignupActivity.kt:217-227 | "Strong password" exactly from 80 up, "Good password" exactly from 60 to 79, "Moderate password" exactly from 40 to 59, "Weak password" exactly below 40 |
| Signup.UpdatePasswordStrengthIndicator | main/java/com/example/trackmyfunds/SignupActivity.kt:217-227 | the helper text is the label of 20 points per criterion met |
| Signup.ValidatePasswordField | main/java/com/example/trackmyfunds/SignupActivity.kt:160-198 | the helper text is written exactly when the password is accepted, and then it always reads "Strong password" |
| Signup.PasswordEdited | main/java/com/example/trackmyfunds/SignupActivity.kt:79-82 | editing the password re-checks it, with the strength helper text on acceptance, and gives the confirmation exactly the verdict of its validator against the new password |
| Signup.NonEmptyPasswordScores | main/java/com/example/trackmyfunds/SignupActivity.kt:229-238 | any non-empty ASCII password meets at least one criterion, since every ASCII character is upper, lower, a digit or special (a non-ASCII letter such as U+4E2D scores nothing in the app) |
| Signup.AcceptedPasswordScoresFull | main/java/com/example/trackmyfunds/SignupActivity.kt:160-238 | an accepted password meets all five criteria, so it scores 100 and is labelled Strong |
| Signup.ShortLowercaseScore | main/java/com/example/trackmyfunds/SignupActivity.kt:229-238 | "abc" meets one criterion (20 points) |
| Signup.FullScoreExample | main/java/com/example/trackmyfunds/SignupActivity.kt:160-238 | "Abc12345!" meets all five criteria and is accepted |
| Signup.ValidateForm | main/java/com/example/trackmyfunds/SignupActivity.kt:240-247 | all four validators run: each field's verdict is its own validator's. The form passes exactly when the email, username, password and confirmation conditions all hold |
| Signup.AttemptSignup | main/java/com/example/trackmyfunds/SignupActivity.kt:249-261 | writes email, username, password and the fixed registration date; transactions, budget, login flag and the other keys are unchanged |
| Signup.SignupClicked | main/java/com/example/trackmyfunds/SignupActivity.kt:99-104 | registers only when every field is accepted. A rejected form writes nothing, and the records, budget and login flag are never touched |
| Signup.SecondSignupRejected | main/java/com/example/trackmyfunds/SignupActivity.kt:124-127 | a form whose email is the registered one is rejected |
| Login.ValidateEmail | main/java/com/example/trackmyfunds/LoginActivity.kt:101-116 | accepts exactly a well-formed email; the stored email is not consulted |
| Login.ValidatePassword | main/java/com/example/trackmyfunds/LoginActivity.kt:121-136 | accepts exactly a password of at least 8 characters. The empty password gets "Password is required", and a password of 1–7 characters gets the length error |
| Login.ValidateForm | main/java/com/example/trackmyfunds/LoginActivity.kt:141-145 | both validators run; the form passes exactly when both fields are accepted |
| Login.CredentialsMatch | main/java/com/example/trackmyfunds/LoginActivity.kt:150-157 | the credentials match exactly when both stored values exist and equal the entered ones. With nothing stored, no login matches |
| Login.LoginSuccess | main/java/com/example/trackmyfunds/LoginActivity.kt:164-171 | sets `isLoggedIn`, the fixed last-login date and an empty current user; credentials, records and budget are unchanged |
| Login.AttemptLogin | main/java/com/example/trackmyfunds/LoginActivity.kt:150-194 | logs in exactly when the entered email and password equal the stored ones. A failure shows "Email not found" and "Incorrect password" and leaves the whole store unchanged |
| Login.LoginClicked | main/java/com/example/trackmyfunds/LoginActivity.kt:77-82 | a rejected form is reported without comparing credentials. Login succeeds exactly when the form passes and the credentials match. A passing form with wrong credentials shows "Email not found" and "Incorrect password", and only success writes the store |
| Login.CheckPreviousLogin | main/java/com/example/trackmyfunds/LoginActivity.kt:91-96 | start-up goes to the main screen exactly when `isLoggedIn` is stored, with no credential check |
| Login.SignupFormPassesLoginValidation | main/java/com/example/trackmyfunds/LoginActivity.kt:101-145 | every form that sign-up accepts also passes login validation |
| Login.LoginAcceptsWeakerPasswords | main/java/com/example/trackmyfunds/LoginActivity.kt:121-136 | "abcdefgh" passes login validation but sign-up rejects it for lacking an uppercase letter |
| Login.SignupThenLogin | main/java/com/example/trackmyfunds/LoginActivity.kt:150-171 | a user who has just signed up can log in with the same email and password; when sign-up rejects the form, no login is attempted (no outcome) |

Notes on two rows:

- `Transactions.DeleteTransaction`:
  - The delete succeeds exactly when the record's amount can be read. On success:
    - the stored set loses exactly that string;
    - the budget falls by the amount for an Income record and rises by it for any other type;
    - the budget is adjusted even when the string was not stored, and an unset budget is read as 0;
    - no other key is written.
  - A crashing delete writes nothing.
- `Analysis.ChartSpec`:
  - Bar i stands at x = i.
  - Its height is the total of label i's category.
  - Labels and bars correspond one to one.
  - The labels are exactly the categories of that type's records, each once.

## Left out

- Widgets, layouts, list adapters, toasts, animations and navigation between screens. A validator's error text is the message in its `Rejected` verdict; `Accepted` stands for clearing the error.
- The two-second lockout after a failed login. It only re-enables the button and clears the two error texts later, so it is timing and display.
- Clearing and focusing the password field after a failed login. This is display only.
- Date and currency formatting (`SimpleDateFormat`, `"Rs.%.2f"`), chart styling, and the chart library's own drawing.
- Floating point. Amounts are exact reals, so `Float` and `Double` rounding in sums and budget updates is not modelled.
- Amounts.ParseAmount: accepts only an optional sign followed by digits with at most one decimal point. `toFloat` also accepts exponents, surrounding whitespace, `NaN`, `Infinity`, a trailing `f`/`d` and hexadecimal forms; the model treats these as unreadable.
- Character classes are ASCII only: `isUpperCase`, `isLowerCase`, `isDigit` and `isLetterOrDigit` on other Unicode letters and digits are not modelled.
- Text beyond the Basic Multilingual Plane. String lengths count characters, not UTF-16 code units, and `Text.LexLeq` compares whole code points. Kotlin compares UTF-16 code units, so the two orders disagree between a character above U+FFFF and one in U+E000–U+FFFF: Kotlin puts U+1F600 before U+FF61, the model after. Dates are ASCII (digits, dashes, a space and colons), so the date sort is unaffected.
- Forms.EmailAddress: restates Android's `Patterns.EMAIL_ADDRESS`. Its definition lives in the Android platform, and that platform is not part of this model.
- Persistence of the preference store, and the asynchronous `apply()`. The store is a set of plain fields written at once.
- Iteration order of the stored set is left arbitrary. The stable sort is modelled, but stability is not stated as a property.
- The iteration order of the stored set is left open, and with it which record's fault is reported when several are malformed. For each order the model gives the fault the app raises. With two or more records, an undated one makes the sort fail with `MissingField`. Otherwise the first failing record in the stable sorted order is reported. In the charts, the grouping reads every category before any amount, so a missing part comes before an unreadable amount. The lemmas state only that the reported fault belongs to some offending record.
- AddTransactionActivity, EditTransactionActivity and AddBudgetActivity are not part of this model. No record encoder is modelled: `Text.Join` serves only as the inverse of `Text.Split`.

=== FILE: Amounts.dfy ===
/**
 * The amount field of a record, read with Kotlin's `toFloat()`. The model
 * reads plain decimal numerals exactly, as `real` values; anything it does
 * not recognise is a parse failure (Kotlin's NumberFormatException).
 */
module Amounts {
  import opened Wrappers
  import opened Text

  predicate AllDigits(s: string) {
    forall i :: 0 <= i < |s| ==> IsDigit(s[i])
  }

  function DigitValue(c: char): nat
    requires IsDigit(c)
  {
    (c as int - '0' as int) as nat
  }

  /** The value of a run of decimal digits, most significant first. */
  function DigitsValue(s: string): nat
    requires AllDigits(s)
    decreases |s|
  {
    if s == [] then 0 else 10 * DigitsValue(s[..|s| - 1]) + DigitValue(s[|s| - 1])
  }

  function Pow10(k: nat): (p: nat)
    ensures p >= 1
  {
    if k == 0 then 1 else 10 * Pow10(k - 1)
  }

  /** `digits`, `digits.`, `.digits` or `digits.digits`, with at least one digit. */
  function ParseUnsigned(s: string): Option<real>
  {
    var parts := Split(s, '.');
    if |parts| == 1 then
      if s != [] && AllDigits(s) then Some(DigitsValue(s) as real) else None
    else if |parts| == 2 && AllDigits(parts[0]) && AllDigits(parts[1]) && |parts[0]| + |parts[1]| >= 1 then
      Some(DigitsValue(parts[0]) as real + DigitsValue(parts[1]) as real / Pow10(|parts[1]|) as real)
    else None
  }

  /** Reading an amount: an optional sign followed by an unsigned decimal numeral. */
  function ParseAmount(s: string): (r: Option<real>)
    ensures r.Some? ==> s != []
    ensures r.Some? && s[0] != '-' ==> r.value >= 0.0
  {
    if s != [] && (s[0] == '+' || s[0] == '-') then
      match ParseUnsigned(s[1..])
      case None => None
      case Some(v) => Some(if s[0] == '-' then -v else v)
    else ParseUnsigned(s)
  }

  /** A plain run of digits reads as the number it spells. */
  lemma ParseDigits(s: string)
    requires s != [] && AllDigits(s)
    ensures ParseAmount(s) == Some(DigitsValue(s) as real)
  {
    SplitWithoutDelimiter(s, '.');
  }

  /** The decimal numeral of a natural number, without sign or leading zeros. */
  function NatText(n: nat): (s: string)
    ensures s != [] && AllDigits(s)
    decreases n
  {
    if n < 10 then [('0' as int + n) as char] else NatText(n / 10) + [('0' as int + n % 10) as char]
  }

  lemma {:induction false} NatTextValue(n: nat)
    ensures DigitsValue(NatText(n)) == n
    decreases n
  {
    if n >= 10 {
      NatTextValue(n / 10);
      var s := NatText(n);
      assert s[..|s| - 1] == NatText(n / 10);
    }
  }

  /** Every whole amount written as a numeral reads back as itself. */
  lemma NatTextRoundTrip(n: nat)
    ensures ParseAmount(NatText(n)) == Some(n as real)
  {
    NatTextValue(n);
    ParseDigits(NatText(n));
  }
}

=== FILE: Analysis.dfy ===
/**
 * The analysis screen: per-category totals of Income and of Expense records,
 * and the bar charts drawn from them.
 */
module Analysis {
  import opened Wrappers
  import opened Amounts
  import opened Records
  import opened Preferences

  /** A record the grouping can use: it has a category part and a readable amount. */
  predicate Countable(raw: string) {
    HasFields(raw, 5) && ParseAmount(Fields(raw)[3]).Some?
  }

  function CategoryOf(raw: string): string
    requires HasFields(raw, 5)
  {
    Fields(raw)[4]
  }

  function AmountValue(raw: string): real
    requires Countable(raw)
  {
    ParseAmount(Fields(raw)[3]).value
  }

  /** One key of the grouped map with the amounts gathered under it, in encounter order. */
  datatype Group = Group(category: string, amounts: seq<real>)

  /** One entry of the summed map: a category and the total of its amounts. */
  datatype CategoryTotal = CategoryTotal(category: string, total: real)

  function Sum(xs: seq<real>): real
    decreases |xs|
  {
    if xs == [] then 0.0 else Sum(xs[..|xs| - 1]) + xs[|xs| - 1]
  }

  /** Adds one record to the groups: to its category's group, or as a new last group. */
  function AddToGroups(groups: seq<Group>, raw: string): seq<Group>
    requires Countable(raw)
    decreases |groups|
  {
    if groups == [] then [Group(CategoryOf(raw), [AmountValue(raw)])]
    else if groups[0].category == CategoryOf(raw) then
      [Group(groups[0].category, groups[0].amounts + [AmountValue(raw)])] + groups[1..]
    else [groups[0]] + AddToGroups(groups[1..], raw)
  }

  /** Grouping by the category part: keys in order of first occurrence, as a LinkedHashMap keeps them. */
  function GroupByCategory(records: seq<string>): seq<Group>
    requires forall r :: r in records ==> Countable(r)
    decreases |records|
  {
    if records == [] then []
    else
      var last := records[|records| - 1];
      AddToGroups(GroupByCategory(records[..|records| - 1]), last)
  }

  /** The total of each group, under the same key and in the same order. */
  function SumGroups(groups: seq<Group>): seq<CategoryTotal>
  {
    seq(|groups|, i requires 0 <= i < |groups| => CategoryTotal(groups[i].category, Sum(groups[i].amounts)))
  }

  /** Only unfolds `SumGroups` for the proofs below; it states no property of its own. */
  lemma SumGroupsEntries(groups: seq<Group>)
    ensures |SumGroups(groups)| == |groups|
    ensures forall i :: 0 <= i < |groups| ==>
      SumGroups(groups)[i] == CategoryTotal(groups[i].category, Sum(groups[i].amounts))
  {
  }

  /**
   * The per-category totals of one type: keep the records of that type, group
   * them by their category part, and sum each group's amounts. The grouping
   * reads part 4 of every record of that type first, then the sums read their
   * amounts.
   */
  function CategorySums(order: seq<string>, kind: string): Result<seq<CategoryTotal>, Fault>
  {
    var records := KeepType(order, Some(kind));
    if exists r | r in records :: !HasFields(r, 5) then Err(MissingField)
    else if exists r | r in records :: !Countable(r) then Err(BadAmount)
    else Ok(SumGroups(GroupByCategory(records)))
  }

  // The reference the grouping is proved against: totals read straight off the records.

  /** The amounts of the records in category `c`, in order. */
  function AmountsIn(records: seq<string>, c: string): seq<real>
    requires forall r :: r in records ==> Countable(r)
    decreases |records|
  {
    if records == [] then []
    else
      var last := records[|records| - 1];
      assert Countable(last);
      AmountsIn(records[..|records| - 1], c) + (if CategoryOf(last) == c then [AmountValue(last)] else [])
  }

  /** The total of the amounts of all the records. */
  function Total(records: seq<string>): real
    requires forall r :: r in records ==> Countable(r)
    decreases |records|
  {
    if records == [] then 0.0
    else Total(records[..|records| - 1]) + AmountValue(records[|records| - 1])
  }

  function GrandTotal(totals: seq<CategoryTotal>): real
    decreases |totals|
  {
    if totals == [] then 0.0 else totals[0].total + GrandTotal(totals[1..])
  }

  /** The keys of the groups, in order. */
  function Keys(groups: seq<Group>): (keys: seq<string>)
    ensures |keys| == |groups|
    ensures forall i :: 0 <= i < |groups| ==> keys[i] == groups[i].category
    decreases |groups|
  {
    if groups == [] then [] else [groups[0].category] + Keys(groups[1..])
  }

  predicate Distinct(s: seq<string>) {
    forall i, j :: 0 <= i < j < |s| ==> s[i] != s[j]
  }

  /** A bar of the chart: its position on the x axis and its height. */
  datatype BarEntry = BarEntry(x: int, y: real)

  datatype BarChart = BarChart(entries: seq<BarEntry>, labels: seq<string>)

  /** `setupBarChart`: bar i stands at x = i with the i-th value, labelled with the i-th key. */
  function SetupBarChart(totals: seq<CategoryTotal>): BarChart
  {
    BarChart(
      seq(|totals|, i requires 0 <= i < |totals| => BarEntry(i, totals[i].total)),
      seq(|totals|, i requires 0 <= i < |totals| => totals[i].category))
  }

  /** `displayBarCharts` on the records in iteration order `order`: income chart, then expense chart. */
  function BarCharts(order: seq<string>): Result<(BarChart, BarChart), Fault>
  {
    match CategorySums(order, Income)
    case Err(e) => Err(e)
    case Ok(incomeByCategory) =>
      match CategorySums(order, Expense)
      case Err(e) => Err(e)
      case Ok(expenseByCategory) => Ok((SetupBarChart(incomeByCategory), SetupBarChart(expenseByCategory)))
  }

  // Lemmas about the grouping.

  /** The amounts gathered under category `c`: those of the first group with that key. */
  function AmountsOf(groups: seq<Group>, c: string): seq<real>
    decreases |groups|
  {
    if groups == [] then []
    else if groups[0].category == c then groups[0].amounts
    else AmountsOf(groups[1..], c)
  }

  /** A record of a known category joins that group; a new category becomes the last key. */
  lemma {:induction false} AddToGroupsKeys(groups: seq<Group>, raw: string)
    requires Countable(raw)
    ensures Keys(AddToGroups(groups, raw))
      == if CategoryOf(raw) in Keys(groups) then Keys(groups) else Keys(groups) + [CategoryOf(raw)]
    decreases |groups|
  {
    if groups != [] && groups[0].category != CategoryOf(raw) {
      AddToGroupsKeys(groups[1..], raw);
      assert Keys(groups) == [groups[0].category] + Keys(groups[1..]);
    }
  }

  /** Adding a record appends its amount under its own category and changes no other category. */
  lemma {:induction false} AddToGroupsAmounts(groups: seq<Group>, raw: string, c: string)
    requires Countable(raw)
    ensures AmountsOf(AddToGroups(groups, raw), c)
      == AmountsOf(groups, c) + (if c == CategoryOf(raw) then [AmountValue(raw)] else [])
    decreases |groups|
  {
    if groups != [] && groups[0].category != CategoryOf(raw) && groups[0].category != c {
      AddToGroupsAmounts(groups[1..], raw, c);
    }
  }

  lemma DistinctAppend(s: seq<string>, x: string)
    requires Distinct(s) && x !in s
    ensures Distinct(s + [x])
  {
  }

  /**
   * Grouping gives each category of the records exactly once, in order of first
   * occurrence, with the amounts of exactly the records of that category.
   */
  lemma {:induction false} GroupByCategorySpec(records: seq<string>, c: string)
    requires forall r :: r in records ==> Countable(r)
    ensures var groups := GroupByCategory(records);
      && Distinct(Keys(groups))
      && (c in Keys(groups) <==> exists r :: r in records && CategoryOf(r) == c)
      && AmountsOf(groups, c) == AmountsIn(records, c)
    decreases |records|
  {
    if records != [] {
      var prefix := records[..|records| - 1];
      var last := records[|records| - 1];
      assert records == prefix + [last];
      assert Countable(last);
      GroupByCategorySpec(prefix, c);
      GroupByCategorySpec(prefix, CategoryOf(last));
      var groups := GroupByCategory(prefix);
      AddToGroupsKeys(groups, last);
      AddToGroupsAmounts(groups, last, c);
      if CategoryOf(last) !in Keys(groups) {
        DistinctAppend(Keys(groups), CategoryOf(last));
      }
      if c in Keys(GroupByCategory(records)) && c != CategoryOf(last) {
        var r :| r in prefix && CategoryOf(r) == c;
        assert r in records;
      }
      if exists r :: r in records && CategoryOf(r) == c {
        var r :| r in records && CategoryOf(r) == c;
        if r != last {
          assert r in prefix;
        }
      }
    }
  }

  /** With distinct keys, the amounts looked up under a group's key are that group's. */
  lemma {:induction false} AmountsOfAt(groups: seq<Group>, i: nat)
    requires i < |groups|
    requires Distinct(Keys(groups))
    ensures AmountsOf(groups, groups[i].category) == groups[i].amounts
    decreases i
  {
    if i > 0 {
      assert Keys(groups)[0] != Keys(groups)[i];
      assert Keys(groups[1..])[i - 1] == Keys(groups)[i];
      forall j, k | 0 <= j < k < |groups[1..]| ensures Keys(groups[1..])[j] != Keys(groups[1..])[k] {
        assert Keys(groups)[j + 1] != Keys(groups)[k + 1];
      }
      AmountsOfAt(groups[1..], i - 1);
    }
  }

  lemma SumAppend(xs: seq<real>, a: real)
    ensures Sum(xs + [a]) == Sum(xs) + a
  {
    assert (xs + [a])[..|xs|] == xs;
  }

  lemma GrandTotalCons(groups: seq<Group>)
    requires groups != []
    ensures GrandTotal(SumGroups(groups)) == Sum(groups[0].amounts) + GrandTotal(SumGroups(groups[1..]))
  {
    assert SumGroups(groups)[1..] == SumGroups(groups[1..]);
  }

  /** Adding a record raises the sum of all category totals by its amount. */
  lemma {:induction false} AddToGroupsTotal(groups: seq<Group>, raw: string)
    requires Countable(raw)
    ensures GrandTotal(SumGroups(AddToGroups(groups, raw))) == GrandTotal(SumGroups(groups)) + AmountValue(raw)
    decreases |groups|
  {
    var out := AddToGroups(groups, raw);
    if groups == [] {
      SumAppend([], AmountValue(raw));
      GrandTotalCons(out);
    } else if groups[0].category == CategoryOf(raw) {
      SumAppend(groups[0].amounts, AmountValue(raw));
      GrandTotalCons(out);
      GrandTotalCons(groups);
      assert out[1..] == groups[1..];
    } else {
      AddToGroupsTotal(groups[1..], raw);
      GrandTotalCons(out);
      GrandTotalCons(groups);
      assert out[1..] == AddToGroups(groups[1..], raw);
    }
  }

  /** The category totals add up to the total of all the records. */
  lemma {:induction false} GroupedTotal(records: seq<string>)
    requires forall r :: r in records ==> Countable(r)
    ensures GrandTotal(SumGroups(GroupByCategory(records))) == Total(records)
    decreases |records|
  {
    if records != [] {
      var prefix := records[..|records| - 1];
      assert forall r :: r in prefix ==> r in records;
      GroupedTotal(prefix);
      AddToGroupsTotal(GroupByCategory(prefix), records[|records| - 1]);
    }
  }

  // What the screen shows.

  /**
   * The totals of type `kind`: every category of that type's records appears
   * once, its total is the sum of that category's amounts, and the totals add
   * up to the sum of all amounts of that type.
   */
  lemma CategorySumsSpec(order: seq<string>, kind: string, c: string)
    requires CategorySums(order, kind).Ok?
    ensures forall r :: r in order && TypeOf(r) == kind ==> Countable(r)
    ensures forall r :: r in KeepType(order, Some(kind)) ==> Countable(r)
    ensures var totals := CategorySums(order, kind).value;
      && (forall i, j :: 0 <= i < j < |totals| ==> totals[i].category != totals[j].category)
      && ((exists i :: 0 <= i < |totals| && totals[i].category == c)
          <==> exists r :: r in order && TypeOf(r) == kind && HasFields(r, 5) && CategoryOf(r) == c)
      && (forall i :: 0 <= i < |totals| ==>
            totals[i].total == Sum(AmountsIn(KeepType(order, Some(kind)), totals[i].category)))
      && GrandTotal(totals) == Total(KeepType(order, Some(kind)))
  {
    var records := KeepType(order, Some(kind));
    KeepTypeMembers(order, Some(kind));
    var groups := GroupByCategory(records);
    var totals := CategorySums(order, kind).value;
    SumGroupsEntries(groups);
    GroupByCategorySpec(records, c);
    if c in Keys(groups) {
      var i :| 0 <= i < |groups| && Keys(groups)[i] == c;
      assert totals[i].category == c;
    }
    if exists i :: 0 <= i < |totals| && totals[i].category == c {
      var i :| 0 <= i < |totals| && totals[i].category == c;
      assert Keys(groups)[i] == c;
    }
    if exists r :: r in order && TypeOf(r) == kind && HasFields(r, 5) && CategoryOf(r) == c {
      var r :| r in order && TypeOf(r) == kind && HasFields(r, 5) && CategoryOf(r) == c;
      assert r in records;
    }
    forall i | 0 <= i < |totals|
      ensures totals[i].total == Sum(AmountsIn(records, totals[i].category))
    {
      GroupByCategorySpec(records, groups[i].category);
      AmountsOfAt(groups, i);
    }
    GroupedTotal(records);
  }

  /** The totals of type `kind` are computed exactly when every record of that type has a category and an amount. */
  lemma CategorySumsFailure(order: seq<string>, kind: string)
    ensures CategorySums(order, kind).Ok? <==> forall r :: r in order && TypeOf(r) == kind ==> Countable(r)
    ensures CategorySums(order, kind) == Err(MissingField)
      <==> exists r :: r in order && TypeOf(r) == kind && !HasFields(r, 5)
    ensures CategorySums(order, kind) == Err(BadAmount)
      ==> exists r :: r in order && TypeOf(r) == kind && HasFields(r, 5) && !Countable(r)
  {
    KeepTypeMembers(order, Some(kind));
  }

  /** With no record of either type, both charts are empty. */
  lemma EmptyCharts(order: seq<string>)
    requires forall r :: r in order ==> TypeOf(r) != Income && TypeOf(r) != Expense
    ensures BarCharts(order) == Ok((BarChart([], []), BarChart([], [])))
  {
    KeepTypeEmpty(order, Some(Income));
    KeepTypeEmpty(order, Some(Expense));
    assert GroupByCategory([]) == [];
    assert SumGroups([]) == [];
    assert CategorySums(order, Income) == Ok([]);
    assert CategorySums(order, Expense) == Ok([]);
    assert SetupBarChart([]) == BarChart([], []);
  }

  /** A record whose type is neither Income nor Expense has no effect on either chart, wherever it is read. */
  lemma OtherTypesIgnored(before: seq<string>, raw: string, after: seq<string>)
    requires TypeOf(raw) != Income && TypeOf(raw) != Expense
    ensures BarCharts(before + [raw] + after) == BarCharts(before + after)
  {
    forall kind | kind == Income || kind == Expense
      ensures KeepType(before + [raw] + after, Some(kind)) == KeepType(before + after, Some(kind))
    {
      KeepTypeAppend(before + [raw], after, Some(kind));
      KeepTypeAppend(before, [raw], Some(kind));
      KeepTypeAppend(before, after, Some(kind));
      assert [raw][..0] == [];
      assert KeepType(before, Some(kind)) + [] == KeepType(before, Some(kind));
    }
  }

  /** Both charts are drawn exactly when every Income and every Expense record has a category and an amount. */
  lemma BarChartsFailure(order: seq<string>)
    ensures BarCharts(order).Ok?
      <==> forall r :: r in order && (TypeOf(r) == Income || TypeOf(r) == Expense) ==> Countable(r)
  {
    CategorySumsFailure(order, Income);
    CategorySumsFailure(order, Expense);
  }

  /**
   * The chart of type `kind` has bar i at x = i, as high as the total of its
   * i-th label, and its labels are the categories of that type's records, each once.
   */
  lemma ChartSpec(order: seq<string>, kind: string, c: string)
    requires CategorySums(order, kind).Ok?
    ensures forall r :: r in KeepType(order, Some(kind)) ==> Countable(r)
    ensures var chart := SetupBarChart(CategorySums(order, kind).value);
      && |chart.entries| == |chart.labels|
      && (forall i :: 0 <= i < |chart.entries| ==> chart.entries[i].x == i)
      && (forall i, j :: 0 <= i < j < |chart.labels| ==> chart.labels[i] != chart.labels[j])
      && (forall i :: 0 <= i < |chart.entries| ==>
            chart.entries[i].y == Sum(AmountsIn(KeepType(order, Some(kind)), chart.labels[i])))
      && (c in chart.labels <==> exists r :: r in order && TypeOf(r) == kind && HasFields(r, 5) && CategoryOf(r) == c)
  {
    var records := KeepType(order, Some(kind));
    var totals := CategorySums(order, kind).value;
    var chart := SetupBarChart(totals);
    CategorySumsSpec(order, kind, c);
    assert |chart.entries| == |chart.labels| == |totals|;
    forall i | 0 <= i < |chart.entries|
      ensures chart.entries[i].x == i
      ensures chart.entries[i].y == Sum(AmountsIn(records, chart.labels[i]))
    {
      assert chart.entries[i] == BarEntry(i, totals[i].total);
      assert chart.labels[i] == totals[i].category;
    }
    forall i, j | 0 <= i < j < |chart.labels| ensures chart.labels[i] != chart.labels[j] {
      assert chart.labels[i] == totals[i].category;
      assert chart.labels[j] == totals[j].category;
    }
    if c in chart.labels {
      var i :| 0 <= i < |chart.labels| && chart.labels[i] == c;
      assert totals[i].category == c;
    }
    if exists i :: 0 <= i < |totals| && totals[i].category == c {
      var i :| 0 <= i < |totals| && totals[i].category == c;
      assert chart.labels[i] == c;
    }
  }

  /**
   * What a chart of type `kind` shows for the stored records, read in iteration
   * order `order`: bar i at x = i with the total of label i, each category of
   * that type's stored records labelled exactly once.
   */
  ghost predicate ShowsCategoryTotals(chart: BarChart, stored: set<string>, order: seq<string>, kind: string) {
    && (forall r :: r in KeepType(order, Some(kind)) ==> Countable(r))
    && |chart.entries| == |chart.labels|
    && (forall i :: 0 <= i < |chart.entries| ==>
          chart.entries[i].x == i && chart.entries[i].y == Sum(AmountsIn(KeepType(order, Some(kind)), chart.labels[i])))
    && (forall i, j :: 0 <= i < j < |chart.labels| ==> chart.labels[i] != chart.labels[j])
    && (forall c :: c in chart.labels <==>
          exists r :: r in stored && TypeOf(r) == kind && HasFields(r, 5) && CategoryOf(r) == c)
  }

  /** `displayBarCharts`: reads the stored records in some order and draws both charts. */
  method DisplayBarCharts(prefs: Store) returns (charts: Result<(BarChart, BarChart), Fault>, ghost order: seq<string>)
    ensures multiset(order) == multiset(prefs.transactions)
    ensures charts.Ok?
      <==> forall r :: r in prefs.transactions && (TypeOf(r) == Income || TypeOf(r) == Expense) ==> Countable(r)
    ensures charts.Ok? ==>
      && ShowsCategoryTotals(charts.value.0, prefs.transactions, order, Income)
      && ShowsCategoryTotals(charts.value.1, prefs.transactions, order, Expense)
  {
    var records := Enumerate(prefs.transactions);
    charts := BarCharts(records);
    order := records;
    forall r ensures r in order <==> r in prefs.transactions {
      assert r in order <==> multiset(order)[r] > 0;
    }
    BarChartsFailure(order);
    if charts.Ok? {
      forall c ensures c in charts.value.0.labels <==>
        exists r :: r in prefs.transactions && TypeOf(r) == Income && HasFields(r, 5) && CategoryOf(r) == c
      {
        ChartSpec(order, Income, c);
      }
      forall c ensures c in charts.value.1.labels <==>
        exists r :: r in prefs.transactions && TypeOf(r) == Expense && HasFields(r, 5) && CategoryOf(r) == c
      {
        ChartSpec(order, Expense, c);
      }
      ChartSpec(order, Income, "");
      ChartSpec(order, Expense, "");
    }
  }
}

=== FILE: Dashboard.dfy ===
/**
 * The home screen: the stored budget and the five most recent records.
 */
module Dashboard {
  import opened Wrappers
  import opened Text
  import opened Records
  import opened Preferences

  /** How many records the recent list shows (`take(5)`). */
  const RecentLimit: nat := 5

  /** One row of the recent list; unlike the list screen it does not keep the record. */
  datatype DashboardItem = DashboardItem(kind: string, description: string, date: string, amount: real)

  /** A dashboard row: type, description and date from parts 0 to 2, and the amount read from part 3. */
  function DecodeDashboardItem(raw: string): (r: Result<DashboardItem, Fault>)
    ensures r.Ok? <==> AmountOf(raw).Ok?
    ensures r.Err? ==> r.error == AmountOf(raw).error
    ensures r.Ok? ==>
      && r.value.amount == AmountOf(raw).value
      && [r.value.kind, r.value.description, r.value.date] == Fields(raw)[..3]
  {
    match AmountOf(raw)
    case Err(e) => Err(e)
    case Ok(a) =>
      var data := Fields(raw);
      Ok(DashboardItem(data[0], data[1], data[2], a))
  }

  function Min(a: nat, b: nat): nat {
    if a <= b then a else b
  }

  /** The records that make the recent list: sorted newest first, the first five kept. */
  function RecentRecords(order: seq<string>): seq<string>
    requires |order| <= 1 || AllDated(order)
  {
    var sorted := SortedByDescendingDate(order);
    sorted[..Min(RecentLimit, |sorted|)]
  }

  /**
   * `displayRecentTransactions` on the records in iteration order `order`:
   * every record is split, the sort reads every date part (when there are two
   * or more records), and only the five kept records are decoded.
   */
  function RecentTransactions(order: seq<string>): Result<seq<DashboardItem>, Fault>
  {
    if |order| >= 2 && exists r | r in order :: !HasFields(r, 3) then Err(MissingField)
    else
      SortedByDescendingDateSpec(order);
      DecodeAll(RecentRecords(order), DecodeDashboardItem)
  }

  /** The kept records are min(5, n) of the stored ones, newest first. */
  lemma RecentRecordsAreNewest(order: seq<string>)
    requires |order| <= 1 || AllDated(order)
    ensures var top := RecentRecords(order);
      && |top| == Min(RecentLimit, |order|)
      && multiset(top) <= multiset(order)
      && (|order| >= 2 ==> AllDated(top) && NewestFirst(top))
  {
    SortedByDescendingDateSpec(order);
    var sorted := SortedByDescendingDate(order);
    var top := RecentRecords(order);
    assert |sorted| == |order| by {
      assert |multiset(sorted)| == |multiset(order)|;
    }
    assert sorted == top + sorted[|top|..];
    assert multiset(sorted) == multiset(top) + multiset(sorted[|top|..]);
  }

  /** No record left out of the recent list is dated after a kept one. */
  lemma OmittedRecordsAreOlder(order: seq<string>)
    requires |order| <= 1 || AllDated(order)
    ensures var top := RecentRecords(order);
      forall r :: r in order && r !in top ==>
        HasFields(r, 3) && forall k :: 0 <= k < |top| ==> LexLeq(DateOf(r), DateOf(top[k]))
  {
    SortedByDescendingDateSpec(order);
    var sorted := SortedByDescendingDate(order);
    var top := RecentRecords(order);
    forall r | r in order && r !in top
      ensures HasFields(r, 3) && forall k :: 0 <= k < |top| ==> LexLeq(DateOf(r), DateOf(top[k]))
    {
      var j :| 0 <= j < |sorted| && sorted[j] == r;
      forall k | 0 <= k < |top| ensures LexLeq(DateOf(r), DateOf(top[k])) {
        assert top[k] == sorted[k];
      }
    }
  }

  /**
   * A recent list that succeeds has min(5, n) rows, newest first; row k is
   * decoded from the k-th kept record, every kept record is stored, and no
   * stored record left out has a date later than any row's date.
   */
  lemma RecentTransactionsSpec(order: seq<string>)
    requires RecentTransactions(order).Ok?
    ensures |order| <= 1 || AllDated(order)
    ensures var items := RecentTransactions(order).value;
      var top := RecentRecords(order);
      && |items| == |top| == Min(RecentLimit, |order|)
      && multiset(top) <= multiset(order)
      && (forall k :: 0 <= k < |items| ==> DecodeDashboardItem(top[k]) == Ok(items[k]))
      && (forall i, j :: 0 <= i < j < |items| ==> LexLeq(items[j].date, items[i].date))
      && (forall r, k :: r in order && r !in top && 0 <= k < |items| ==>
            HasFields(r, 3) && !LexLess(items[k].date, DateOf(r)))
  {
    RecentRecordsAreNewest(order);
    OmittedRecordsAreOlder(order);
    var top := RecentRecords(order);
    var items := RecentTransactions(order).value;
    assert forall k :: 0 <= k < |items| ==> items[k].date == Fields(top[k])[2];
    if |order| >= 2 {
      forall i, j | 0 <= i < j < |items| ensures LexLeq(items[j].date, items[i].date) {
        assert items[i].date == DateOf(top[i]) && items[j].date == DateOf(top[j]);
      }
    }
    forall r, k | r in order && r !in top && 0 <= k < |items|
      ensures HasFields(r, 3) && !LexLess(items[k].date, DateOf(r))
    {
      LexLeqNotLess(DateOf(r), DateOf(top[k]));
    }
  }

  /** The recent list fails exactly on an undated record (among two or more) or a kept record without a readable amount. */
  lemma RecentTransactionsFailure(order: seq<string>)
    ensures RecentTransactions(order).Ok? <==>
      && (|order| <= 1 || AllDated(order))
      && forall r :: r in RecentRecords(order) ==> AmountOf(r).Ok?
  {
    if |order| <= 1 || AllDated(order) {
      var top := RecentRecords(order);
      var result := DecodeAll(top, DecodeDashboardItem);
      if result.Ok? {
        forall r | r in top ensures AmountOf(r).Ok? {
          var k :| 0 <= k < |top| && top[k] == r;
          assert DecodeDashboardItem(top[k]).Ok?;
        }
      }
    }
  }

  /** The recent list is built whenever every record has a readable amount. */
  lemma RecentTransactionsReadable(order: seq<string>)
    requires forall r :: r in order ==> AmountOf(r).Ok?
    ensures RecentTransactions(order).Ok?
  {
    assert AllDated(order);
    RecentRecordsAreNewest(order);
    var top := RecentRecords(order);
    forall r | r in top ensures AmountOf(r).Ok? {
      assert multiset(top)[r] > 0;
    }
    RecentTransactionsFailure(order);
  }

  /** A recent list that fails reports the fault of one of the records. */
  lemma RecentTransactionsFault(order: seq<string>)
    requires RecentTransactions(order).Err?
    ensures exists r :: r in order && AmountOf(r) == Err(RecentTransactions(order).error)
  {
    var e := RecentTransactions(order).error;
    if |order| >= 2 && exists r | r in order :: !HasFields(r, 3) {
      var r :| r in order && !HasFields(r, 3);
      assert AmountOf(r) == Err(e);
    } else {
      var top := RecentRecords(order);
      assert DecodeAll(top, DecodeDashboardItem) == Err(e);
      var i :| 0 <= i < |top| && DecodeDashboardItem(top[i]) == Err(e);
      RecentRecordsAreNewest(order);
      assert multiset(top)[top[i]] > 0;
    }
  }

  /**
   * `updateDashboard`: the budget shown is the stored one, or 0 when unset,
   * and the recent list is built from the stored records. The store is only
   * read. The list is built whenever every stored amount is readable, and a
   * failure always comes from some stored record without one.
   */
  method UpdateDashboard(prefs: Store) returns (budget: real, recent: Result<seq<DashboardItem>, Fault>, ghost shownRecords: seq<string>)
    ensures prefs.monthlyBudget.None? ==> budget == 0.0
    ensures prefs.monthlyBudget.Some? ==> budget == prefs.monthlyBudget.value
    ensures (forall r :: r in prefs.transactions ==> AmountOf(r).Ok?) ==> recent.Ok?
    ensures recent.Err? ==> exists r :: r in prefs.transactions && AmountOf(r) == Err(recent.error)
    ensures recent.Ok? ==>
      && |recent.value| == |shownRecords| == Min(RecentLimit, |prefs.transactions|)
      && multiset(shownRecords) <= multiset(prefs.transactions)
      && (forall k :: 0 <= k < |shownRecords| ==>
            shownRecords[k] in prefs.transactions && DecodeDashboardItem(shownRecords[k]) == Ok(recent.value[k]))
      && (forall i, j :: 0 <= i < j < |recent.value| ==> LexLeq(recent.value[j].date, recent.value[i].date))
      && (forall r, k :: r in prefs.transactions && r !in shownRecords && 0 <= k < |recent.value| ==>
            HasFields(r, 3) && !LexLess(recent.value[k].date, DateOf(r)))
  {
    budget := prefs.Budget();
    var order := Enumerate(prefs.transactions);
    recent := RecentTransactions(order);
    shownRecords := [];
    assert |order| == |prefs.transactions| by {
      assert |multiset(order)| == |multiset(prefs.transactions)|;
    }
    forall r ensures r in order <==> r in prefs.transactions {
      assert r in order <==> multiset(order)[r] > 0;
    }
    if forall r :: r in order ==> AmountOf(r).Ok? {
      RecentTransactionsReadable(order);
    }
    if recent.Err? {
      RecentTransactionsFault(order);
    }
    if recent.Ok? {
      RecentTransactionsSpec(order);
      shownRecords := RecentRecords(order);
      forall k | 0 <= k < |shownRecords| ensures shownRecords[k] in prefs.transactions {
        assert multiset(shownRecords)[shownRecords[k]] > 0;
      }
    }
  }
}

=== FILE: Forms.dfy ===
/**
 * What the sign-up and login forms share: the verdict a field validator
 * reports, and the two patterns the fields are matched against.
 */
module Forms {
  import opened Text

  /** A validator's verdict: accepted, or rejected with the error text the field shows. */
  datatype FieldCheck = Accepted | Rejected(message: string)

  /** Characters allowed before the `@`: `[a-zA-Z0-9+._%-]`. */
  predicate EmailLocalChar(c: char) {
    IsLetterOrDigit(c) || c == '+' || c == '.' || c == '_' || c == '%' || c == '-'
  }

  /** A domain label: an alphanumeric first character then `[a-zA-Z0-9-]`, at most `maxLength` in all. */
  predicate DomainLabel(s: string, maxLength: nat) {
    1 <= |s| <= maxLength
    && IsLetterOrDigit(s[0])
    && forall i :: 1 <= i < |s| ==> IsLetterOrDigit(s[i]) || s[i] == '-'
  }

  /**
   * Android's `Patterns.EMAIL_ADDRESS` matched against the whole string:
   * 1 to 256 local characters, `@`, a label of up to 65 characters, then one
   * or more `.`-prefixed labels of up to 26 characters. No part of the pattern
   * admits `@` or, inside a label, `.`, so splitting on them finds the parts.
   */
  predicate EmailAddress(s: string) {
    var atParts := Split(s, '@');
    |atParts| == 2
    && 1 <= |atParts[0]| <= 256
    && (forall i :: 0 <= i < |atParts[0]| ==> EmailLocalChar(atParts[0][i]))
    && var labels := Split(atParts[1], '.');
       |labels| >= 2
       && DomainLabel(labels[0], 65)
       && forall k :: 1 <= k < |labels| ==> DomainLabel(labels[k], 26)
  }

  predicate UsernameChar(c: char) {
    IsLetterOrDigit(c) || c == '_'
  }

  /** `^[a-zA-Z0-9_]+$`. */
  predicate UsernamePattern(s: string) {
    s != [] && forall i :: 0 <= i < |s| ==> UsernameChar(s[i])
  }
}

=== FILE: Login.dfy ===
/**
 * The login screen: its two field validators, the credential comparison
 * against the stored account, the session flag it sets, and the start-up
 * shortcut for a user who is already logged in.
 */
module Login {
  import opened Wrappers
  import opened Forms
  import opened Preferences
  import Signup

  const MinPasswordLength: nat := 8
  /** The fixed timestamp written as the last login date. */
  const LastLoginDate: string := "2025-04-04 19:43:28"

  const EmailRequired: string := "Email is required"
  const InvalidEmail: string := "Invalid email format"
  const PasswordRequired: string := "Password is required"
  const PasswordTooShort: string := "Password must be at least 8 characters"
  /** The inline errors shown after credentials that do not match. */
  const EmailNotFound: string := "Email not found"
  const IncorrectPassword: string := "Incorrect password"

  /** The email must be present and well formed; unlike sign-up, the stored email is not consulted. */
  function ValidateEmail(email: string): (check: FieldCheck)
    ensures check == Accepted <==> EmailAddress(email)
    ensures check == Rejected(EmailRequired) <==> email == []
    ensures check == Rejected(InvalidEmail) <==> email != [] && !EmailAddress(email)
  {
    if email == [] then Rejected(EmailRequired)
    else if !EmailAddress(email) then Rejected(InvalidEmail)
    else Accepted
  }

  /** The password must be present and at least 8 characters; its characters are not examined. */
  function ValidatePassword(password: string): (check: FieldCheck)
    ensures check == Accepted <==> |password| >= MinPasswordLength
    ensures check == Rejected(PasswordRequired) <==> password == []
    ensures check == Rejected(PasswordTooShort) <==> 0 < |password| < MinPasswordLength
  {
    if password == [] then Rejected(PasswordRequired)
    else if |password| < MinPasswordLength then Rejected(PasswordTooShort)
    else Accepted
  }

  datatype LoginReport = LoginReport(email: FieldCheck, password: FieldCheck)
  {
    predicate AllAccepted() {
      email == Accepted && password == Accepted
    }
  }

  /** Both validators run, so both fields show their errors at once. */
  function ValidateForm(email: string, password: string): (report: LoginReport)
    ensures report.AllAccepted() <==> EmailAddress(email) && |password| >= MinPasswordLength
    ensures report.email == ValidateEmail(email) && report.password == ValidatePassword(password)
  {
    LoginReport(ValidateEmail(email), ValidatePassword(password))
  }

  /**
   * The entered credentials are compared for equality with the stored ones;
   * a missing stored value equals no entered string.
   */
  function CredentialsMatch(email: string, password: string, storedEmail: Option<string>, storedPassword: Option<string>): (ok: bool)
    ensures ok ==> storedEmail.Some? && storedPassword.Some?
    ensures ok <==> storedEmail == Some(email) && storedPassword == Some(password)
  {
    match (storedEmail, storedPassword)
    case (Some(e), Some(p)) => e == email && p == password
    case _ => false
  }

  /** Marks the session as logged in; credentials, records and budget stay as they were. */
  method LoginSuccess(prefs: Store)
    modifies prefs
    ensures prefs.isLoggedIn
    ensures prefs.lastLoginDate == Some(LastLoginDate)
    ensures prefs.currentUser == Some("")
    ensures unchanged(prefs`transactions, prefs`monthlyBudget, prefs`email, prefs`username, prefs`password, prefs`registrationDate)
  {
    prefs.isLoggedIn := true;
    prefs.lastLoginDate := Some(LastLoginDate);
    prefs.currentUser := Some("");
  }

  /** What the screen does after the login button. */
  datatype LoginOutcome =
    | FormRejected(report: LoginReport)
    | LoginFailed(emailError: string, passwordError: string)
    | LoggedIn

  /**
   * Compares the credentials with the stored account and either logs in or
   * reports the failure, which writes nothing to the store.
   */
  method AttemptLogin(prefs: Store, email: string, password: string) returns (outcome: LoginOutcome)
    modifies prefs
    ensures outcome == LoggedIn <==> old(prefs.email) == Some(email) && old(prefs.password) == Some(password)
    ensures outcome != LoggedIn ==> outcome == LoginFailed(EmailNotFound, IncorrectPassword)
    ensures outcome == LoggedIn ==>
      && prefs.isLoggedIn && prefs.lastLoginDate == Some(LastLoginDate) && prefs.currentUser == Some("")
    ensures outcome != LoggedIn ==> unchanged(prefs)
    ensures unchanged(prefs`transactions, prefs`monthlyBudget, prefs`email, prefs`username, prefs`password, prefs`registrationDate)
  {
    if CredentialsMatch(email, password, prefs.email, prefs.password) {
      LoginSuccess(prefs);
      outcome := LoggedIn;
    } else {
      outcome := LoginFailed(EmailNotFound, IncorrectPassword);
    }
  }

  /**
   * The login button: the credentials are compared only when both fields are
   * accepted, and a mismatch shows the two failure messages.
   */
  method LoginClicked(prefs: Store, email: string, password: string) returns (outcome: LoginOutcome)
    modifies prefs
    ensures !ValidateForm(email, password).AllAccepted() ==> outcome == FormRejected(ValidateForm(email, password))
    ensures ValidateForm(email, password).AllAccepted()
      && !(old(prefs.email) == Some(email) && old(prefs.password) == Some(password))
      ==> outcome == LoginFailed(EmailNotFound, IncorrectPassword)
    ensures outcome == LoggedIn <==>
      && ValidateForm(email, password).AllAccepted()
      && old(prefs.email) == Some(email) && old(prefs.password) == Some(password)
    ensures outcome == LoggedIn ==>
      && prefs.isLoggedIn && prefs.lastLoginDate == Some(LastLoginDate) && prefs.currentUser == Some("")
    ensures outcome != LoggedIn ==> unchanged(prefs)
    ensures unchanged(prefs`transactions, prefs`monthlyBudget, prefs`email, prefs`username, prefs`password, prefs`registrationDate)
  {
    var report := ValidateForm(email, password);
    if report.AllAccepted() {
      outcome := AttemptLogin(prefs, email, password);
    } else {
      outcome := FormRejected(report);
    }
  }

  /** At start-up a stored login flag goes straight to the main screen, with no credential check. */
  method CheckPreviousLogin(prefs: Store) returns (goToMain: bool)
    ensures goToMain <==> prefs.isLoggedIn
  {
    goToMain := prefs.isLoggedIn;
  }

  /** Every form the sign-up screen accepts passes the login screen's validation too. */
  lemma SignupFormPassesLoginValidation(form: Signup.SignupForm, storedEmail: Option<string>, storedUsername: Option<string>)
    requires Signup.ValidateForm(form, storedEmail, storedUsername).AllAccepted()
    ensures ValidateForm(form.email, form.password).AllAccepted()
  {
  }

  /** Login validation is weaker: a password of eight lowercase letters passes it but not sign-up's. */
  lemma LoginAcceptsWeakerPasswords()
    ensures ValidatePassword("abcdefgh") == Accepted
    ensures Signup.ValidatePassword("abcdefgh") == Rejected(Signup.NoUppercase)
  {
    assert !Signup.HasUpper("abcdefgh");
  }

  /**
   * A user who has just signed up can log in with the same email and password,
   * and is then logged in with the account unchanged. When sign-up rejects
   * the form, no login is attempted.
   */
  method SignupThenLogin(prefs: Store, form: Signup.SignupForm) returns (report: Signup.SignupReport, outcome: Option<LoginOutcome>)
    modifies prefs
    ensures outcome.Some? <==> report.AllAccepted()
    ensures report.AllAccepted() ==> outcome == Some(LoggedIn) && prefs.isLoggedIn
    ensures report.AllAccepted() ==>
      prefs.email == Some(form.email) && prefs.password == Some(form.password)
  {
    report := Signup.SignupClicked(prefs, form);
    if report.AllAccepted() {
      SignupFormPassesLoginValidation(form, old(prefs.email), old(prefs.username));
      var login := LoginClicked(prefs, form.email, form.password);
      outcome := Some(login);
    } else {
      outcome := None;
    }
  }
}

=== FILE: Preferences.dfy ===
/**
 * The app's one preference file, "TrackMyFundsPrefs": every key the core
 * screens read or write, as fields of one object that the screens update in
 * place.
 */
module Preferences {
  import opened Wrappers

  class Store {
    /** `transactions`: the encoded records; a set, so equal strings collapse into one. */
    var transactions: set<string>
    /** `monthlyBudget`; None until first written. */
    var monthlyBudget: Option<real>
    var email: Option<string>
    var username: Option<string>
    var password: Option<string>
    var registrationDate: Option<string>
    var lastLoginDate: Option<string>
    var currentUser: Option<string>
    /** `isLoggedIn`; an unset flag reads as false, so it is held as false. */
    var isLoggedIn: bool

    /** A fresh installation: no key written yet. */
    constructor ()
      ensures transactions == {} && monthlyBudget == None
      ensures email == None && username == None && password == None
      ensures registrationDate == None && lastLoginDate == None && currentUser == None
      ensures !isLoggedIn
    {
      transactions := {};
      monthlyBudget := None;
      email, username, password := None, None, None;
      registrationDate, lastLoginDate, currentUser := None, None, None;
      isLoggedIn := false;
    }

    /** The stored monthly budget, read as 0 when it was never set. */
    function Budget(): real
      reads this
    {
      monthlyBudget.GetOr(0.0)
    }
  }

  /**
   * `getStringSet("transactions", ...)` iterated: each stored record exactly
   * once, in an order the model leaves open.
   */
  method Enumerate(records: set<string>) returns (order: seq<string>)
    ensures multiset(order) == multiset(records)
  {
    order := [];
    var rest := records;
    while rest != {}
      invariant rest <= records
      invariant multiset(order) + multiset(rest) == multiset(records)
      decreases |rest|
    {
      var r :| r in rest;
      assert multiset(rest) == multiset(rest - {r}) + multiset{r};
      order := order + [r];
      rest := rest - {r};
    }
  }
}

=== FILE: Records.dfy ===
/**
 * The stored transaction record `type|description|date|amount|category`,
 * as every screen reads it: split on `|`, index the parts, sort by the date
 * part, decode one record after another.
 */
module Records {
  import opened Wrappers
  import opened Text
  import opened Amounts

  const Separator: char := '|'
  const Income: string := "Income"
  const Expense: string := "Expense"

  /** Why reading a record stops the screen: a part index past the end, or an amount `toFloat()` rejects. */
  datatype Fault = MissingField | BadAmount

  /** The parts of a record, split on `|`. */
  function Fields(raw: string): seq<string> {
    Split(raw, Separator)
  }

  predicate HasFields(raw: string, n: nat) {
    n <= |Fields(raw)|
  }

  /** Part 0; `split` always yields at least one part, so this never fails. */
  function TypeOf(raw: string): string {
    Fields(raw)[0]
  }

  function DateOf(raw: string): string
    requires HasFields(raw, 3)
  {
    Fields(raw)[2]
  }

  /** The amount: part 3 read as a number; a missing part or an unreadable numeral is a fault. */
  function AmountOf(raw: string): Result<real, Fault> {
    if !HasFields(raw, 4) then Err(MissingField)
    else match ParseAmount(Fields(raw)[3])
      case None => Err(BadAmount)
      case Some(a) => Ok(a)
  }

  /** The listing's filter test: with no filter every record passes, otherwise exactly those whose type part equals it. */
  predicate Selected(raw: string, filter: Option<string>) {
    filter.None? || TypeOf(raw) == filter.value
  }

  /** The records a filter keeps, in their original order. */
  function KeepType(order: seq<string>, filter: Option<string>): seq<string>
    decreases |order|
  {
    if order == [] then []
    else
      var last := order[|order| - 1];
      KeepType(order[..|order| - 1], filter) + (if Selected(last, filter) then [last] else [])
  }

  /** Every selected record is kept as often as it occurs, every other one dropped. */
  lemma {:induction false} KeepTypeCount(order: seq<string>, filter: Option<string>)
    ensures forall r :: multiset(KeepType(order, filter))[r] == if Selected(r, filter) then multiset(order)[r] else 0
    decreases |order|
  {
    if order != [] {
      var prefix := order[..|order| - 1];
      var last := order[|order| - 1];
      assert order == prefix + [last];
      KeepTypeCount(prefix, filter);
    }
  }

  /** A record is kept exactly when it is stored and passes the filter. */
  lemma KeepTypeMembers(order: seq<string>, filter: Option<string>)
    ensures forall r :: r in KeepType(order, filter) <==> r in order && Selected(r, filter)
  {
    var kept := KeepType(order, filter);
    KeepTypeCount(order, filter);
    forall r ensures r in kept <==> r in order && Selected(r, filter) {
      assert r in kept <==> multiset(kept)[r] > 0;
      assert r in order <==> multiset(order)[r] > 0;
    }
  }

  /** Nothing is kept exactly when no record passes the filter. */
  lemma {:induction false} KeepTypeEmpty(order: seq<string>, filter: Option<string>)
    ensures KeepType(order, filter) == [] <==> forall r :: r in order ==> !Selected(r, filter)
    decreases |order|
  {
    if order != [] {
      var prefix := order[..|order| - 1];
      var last := order[|order| - 1];
      assert order == prefix + [last];
      KeepTypeEmpty(prefix, filter);
    }
  }

  /** Filtering commutes with concatenation: each record is judged on its own. */
  lemma {:induction false} KeepTypeAppend(xs: seq<string>, ys: seq<string>, filter: Option<string>)
    ensures KeepType(xs + ys, filter) == KeepType(xs, filter) + KeepType(ys, filter)
    decreases |ys|
  {
    if ys != [] {
      var zs := xs + ys;
      assert zs[..|zs| - 1] == xs + ys[..|ys| - 1];
      KeepTypeAppend(xs, ys[..|ys| - 1], filter);
    } else {
      assert xs + ys == xs;
    }
  }

  predicate AllDated(rs: seq<string>) {
    forall r :: r in rs ==> HasFields(r, 3)
  }

  /** Non-increasing by date under Kotlin's string order. */
  ghost predicate NewestFirst(rs: seq<string>)
    requires AllDated(rs)
  {
    forall i, j :: 0 <= i < j < |rs| ==> LexLeq(DateOf(rs[j]), DateOf(rs[i]))
  }

  /** Places `r` before the first record whose date is not later than its own. */
  function InsertByDate(r: string, sorted: seq<string>): (out: seq<string>)
    requires HasFields(r, 3) && AllDated(sorted)
    ensures multiset(out) == multiset(sorted) + multiset{r}
    ensures AllDated(out)
    decreases |sorted|
  {
    if sorted == [] then [r]
    else if LexLeq(DateOf(sorted[0]), DateOf(r)) then [r] + sorted
    else
      assert sorted == [sorted[0]] + sorted[1..];
      [sorted[0]] + InsertByDate(r, sorted[1..])
  }

  /** A stable insertion sort, newest date first: records with equal dates keep their order. */
  function SortNewestFirst(rs: seq<string>): (out: seq<string>)
    requires AllDated(rs)
    ensures multiset(out) == multiset(rs)
    ensures AllDated(out)
    decreases |rs|
  {
    if rs == [] then []
    else
      assert rs == [rs[0]] + rs[1..];
      InsertByDate(rs[0], SortNewestFirst(rs[1..]))
  }

  /**
   * Sorting newest first by the date part. The library leaves a list of fewer than
   * two elements alone without ever reading a key, so only longer lists need
   * every record to have a date part.
   */
  function SortedByDescendingDate(rs: seq<string>): seq<string>
    requires |rs| <= 1 || AllDated(rs)
  {
    if |rs| <= 1 then rs else SortNewestFirst(rs)
  }

  lemma {:induction false} InsertKeepsNewestFirst(r: string, sorted: seq<string>)
    requires HasFields(r, 3) && AllDated(sorted) && NewestFirst(sorted)
    ensures NewestFirst(InsertByDate(r, sorted))
    decreases |sorted|
  {
    if sorted != [] {
      var top := DateOf(sorted[0]);
      forall x | x in sorted ensures LexLeq(DateOf(x), top) {
        var k :| 0 <= k < |sorted| && sorted[k] == x;
        if k == 0 {
          LexLeqReflexive(top);
        }
      }
      if LexLeq(top, DateOf(r)) {
        forall x | x in sorted ensures LexLeq(DateOf(x), DateOf(r)) {
          LexLeqTransitive(DateOf(x), top, DateOf(r));
        }
        ConsKeepsNewestFirst(r, sorted);
      } else {
        LexLeqTotal(top, DateOf(r));
        var rest := sorted[1..];
        assert forall x :: x in rest ==> x in sorted;
        InsertKeepsNewestFirst(r, rest);
        InsertedBelow(r, rest, top);
        ConsKeepsNewestFirst(sorted[0], InsertByDate(r, rest));
      }
    }
  }

  /** A record no older than any in a newest-first list can go in front of it. */
  lemma ConsKeepsNewestFirst(head: string, tail: seq<string>)
    requires HasFields(head, 3) && AllDated(tail) && NewestFirst(tail)
    requires forall x :: x in tail ==> LexLeq(DateOf(x), DateOf(head))
    ensures AllDated([head] + tail) && NewestFirst([head] + tail)
  {
    var out := [head] + tail;
    forall i, j | 0 <= i < j < |out|
      ensures LexLeq(DateOf(out[j]), DateOf(out[i]))
    {
      assert out[j] == tail[j - 1];
      if i == 0 {
        assert tail[j - 1] in tail;
      } else {
        assert out[i] == tail[i - 1];
      }
    }
  }

  /** Inserting a record no later than `top` into records no later than `top` keeps them all no later than `top`. */
  lemma InsertedBelow(r: string, rest: seq<string>, top: string)
    requires HasFields(r, 3) && AllDated(rest)
    requires LexLeq(DateOf(r), top)
    requires forall x :: x in rest ==> LexLeq(DateOf(x), top)
    ensures forall x :: x in InsertByDate(r, rest) ==> LexLeq(DateOf(x), top)
  {
    var out := InsertByDate(r, rest);
    forall x | x in out ensures LexLeq(DateOf(x), top) {
      assert multiset(out)[x] > 0;
      if x != r {
        assert multiset(rest)[x] > 0;
      }
    }
  }

  lemma {:induction false} SortIsNewestFirst(rs: seq<string>)
    requires AllDated(rs)
    ensures NewestFirst(SortNewestFirst(rs))
    decreases |rs|
  {
    if rs != [] {
      assert rs == [rs[0]] + rs[1..];
      SortIsNewestFirst(rs[1..]);
      InsertKeepsNewestFirst(rs[0], SortNewestFirst(rs[1..]));
    }
  }

  /** The sort is a permutation, and ordered by date whenever every record has one. */
  lemma SortedByDescendingDateSpec(rs: seq<string>)
    requires |rs| <= 1 || AllDated(rs)
    ensures multiset(SortedByDescendingDate(rs)) == multiset(rs)
    ensures forall r :: r in SortedByDescendingDate(rs) <==> r in rs
    ensures AllDated(rs) ==> AllDated(SortedByDescendingDate(rs)) && NewestFirst(SortedByDescendingDate(rs))
  {
    if |rs| > 1 {
      SortIsNewestFirst(rs);
    }
    var sorted := SortedByDescendingDate(rs);
    forall r ensures r in sorted <==> r in rs {
      assert r in sorted <==> multiset(sorted)[r] > 0;
      assert r in rs <==> multiset(rs)[r] > 0;
    }
  }

  /** Decoding a whole list: decodes in order and stops at the first record that fails. */
  function DecodeAll<T>(rs: seq<string>, decode: string -> Result<T, Fault>): (r: Result<seq<T>, Fault>)
    ensures r.Ok? <==> forall i :: 0 <= i < |rs| ==> decode(rs[i]).Ok?
    ensures r.Ok? ==> |r.value| == |rs| && forall i :: 0 <= i < |rs| ==> decode(rs[i]) == Ok(r.value[i])
    ensures r.Err? ==> exists i :: 0 <= i < |rs| && decode(rs[i]) == Err(r.error)
    decreases |rs|
  {
    if rs == [] then Ok([])
    else match decode(rs[0])
      case Err(e) => Err(e)
      case Ok(x) =>
        match DecodeAll(rs[1..], decode)
        case Err(e) => Err(e)
        case Ok(xs) => Ok([x] + xs)
  }
}

=== FILE: Signup.dfy ===
/**
 * The sign-up screen: its four field validators, the password-strength score
 * and helper text, the whole-form check and the account it writes.
 * A validator's verdict stands for the error text its field shows; `Accepted`
 * is the cleared error.
 */
module Signup {
  import opened Wrappers
  import opened Text
  import opened Forms
  import opened Preferences

  const MinPasswordLength: nat := 8
  const MinUsernameLength: nat := 3
  /** The fixed timestamp written as the registration date. */
  const RegistrationDate: string := "2025-04-04 20:18:12"

  const EmailRequired: string := "Email is required"
  const InvalidEmail: string := "Invalid email format"
  const EmailTaken: string := "Email already registered"
  const UsernameRequired: string := "Username is required"
  const UsernameTooShort: string := "Username must be at least 3 characters"
  const UsernameBadCharacters: string := "Username can only contain letters, numbers, and underscores"
  const UsernameTaken: string := "Username already taken"
  const PasswordRequired: string := "Password is required"
  const PasswordTooShort: string := "Password must be at least 8 characters"
  const NoUppercase: string := "Password must contain at least one uppercase letter"
  const NoLowercase: string := "Password must contain at least one lowercase letter"
  const NoDigit: string := "Password must contain at least one number"
  const NoSpecial: string := "Password must contain at least one special character"
  const ConfirmRequired: string := "Please confirm your password"
  const PasswordsDiffer: string := "Passwords do not match"

  // Field validators, each a chain of checks reporting the first that fails.

  /** The email must be present, well formed, and not the one already registered. */
  function ValidateEmail(email: string, storedEmail: Option<string>): (check: FieldCheck)
    ensures check == Accepted <==> EmailAddress(email) && storedEmail != Some(email)
    ensures check == Rejected(EmailRequired) <==> email == []
    ensures check == Rejected(InvalidEmail) <==> email != [] && !EmailAddress(email)
    ensures check == Rejected(EmailTaken) <==> email != [] && EmailAddress(email) && storedEmail == Some(email)
  {
    if email == [] then Rejected(EmailRequired)
    else if !EmailAddress(email) then Rejected(InvalidEmail)
    else if storedEmail == Some(email) then Rejected(EmailTaken)
    else Accepted
  }

  /**
   * The username must be at least 3 characters of `[a-zA-Z0-9_]` and not the
   * one already registered.
   */
  function ValidateUsername(username: string, storedUsername: Option<string>): (check: FieldCheck)
    ensures check == Accepted
      <==> |username| >= MinUsernameLength && UsernamePattern(username) && storedUsername != Some(username)
    ensures check == Rejected(UsernameRequired) <==> username == []
    ensures check == Rejected(UsernameTooShort) <==> 0 < |username| < MinUsernameLength
    ensures check == Rejected(UsernameBadCharacters)
      <==> |username| >= MinUsernameLength && !UsernamePattern(username)
    ensures check == Rejected(UsernameTaken)
      <==> |username| >= MinUsernameLength && UsernamePattern(username) && storedUsername == Some(username)
  {
    if username == [] then Rejected(UsernameRequired)
    else if |username| < MinUsernameLength then Rejected(UsernameTooShort)
    else if !UsernamePattern(username) then Rejected(UsernameBadCharacters)
    else if storedUsername == Some(username) then Rejected(UsernameTaken)
    else Accepted
  }

  predicate HasUpper(p: string) { exists i :: 0 <= i < |p| && IsUpper(p[i]) }
  predicate HasLower(p: string) { exists i :: 0 <= i < |p| && IsLower(p[i]) }
  predicate HasDigit(p: string) { exists i :: 0 <= i < |p| && IsDigit(p[i]) }
  /** A character that is neither a letter nor a digit. */
  predicate HasSpecial(p: string) { exists i :: 0 <= i < |p| && !IsLetterOrDigit(p[i]) }

  /** The password must be long enough and hold an uppercase letter, a lowercase letter, a digit and a special character. */
  function ValidatePassword(password: string): (check: FieldCheck)
    ensures check == Accepted
      <==> |password| >= MinPasswordLength && HasUpper(password) && HasLower(password)
           && HasDigit(password) && HasSpecial(password)
    ensures check == Rejected(PasswordRequired) <==> password == []
    ensures check == Rejected(PasswordTooShort) <==> 0 < |password| < MinPasswordLength
    ensures check == Rejected(NoUppercase) <==> |password| >= MinPasswordLength && !HasUpper(password)
    ensures check == Rejected(NoLowercase)
      <==> |password| >= MinPasswordLength && HasUpper(password) && !HasLower(password)
    ensures check == Rejected(NoDigit)
      <==> |password| >= MinPasswordLength && HasUpper(password) && HasLower(password) && !HasDigit(password)
    ensures check == Rejected(NoSpecial)
      <==> |password| >= MinPasswordLength && HasUpper(password) && HasLower(password)
           && HasDigit(password) && !HasSpecial(password)
  {
    if password == [] then Rejected(PasswordRequired)
    else if |password| < MinPasswordLength then Rejected(PasswordTooShort)
    else if !HasUpper(password) then Rejected(NoUppercase)
    else if !HasLower(password) then Rejected(NoLowercase)
    else if !HasDigit(password) then Rejected(NoDigit)
    else if !HasSpecial(password) then Rejected(NoSpecial)
    else Accepted
  }

  /** The confirmation must be present and equal to the password field. */
  function ValidateConfirmPassword(confirmPassword: string, password: string): (check: FieldCheck)
    ensures check == Accepted <==> confirmPassword != [] && confirmPassword == password
    ensures check == Rejected(ConfirmRequired) <==> confirmPassword == []
    ensures check == Rejected(PasswordsDiffer) <==> confirmPassword != [] && confirmPassword != password
  {
    if confirmPassword == [] then Rejected(ConfirmRequired)
    else if confirmPassword != password then Rejected(PasswordsDiffer)
    else Accepted
  }

  // Password strength.

  /** How many of the five strength criteria the password meets. */
  function CriteriaMet(p: string): nat {
    (if |p| >= MinPasswordLength then 1 else 0)
    + (if HasUpper(p) then 1 else 0)
    + (if HasLower(p) then 1 else 0)
    + (if HasDigit(p) then 1 else 0)
    + (if HasSpecial(p) then 1 else 0)
  }

  /** Twenty points for each criterion, awarded one after the other. */
  method CalculatePasswordStrength(password: string) returns (score: int)
    ensures score == 20 * CriteriaMet(password)
    ensures 0 <= score <= 100 && score % 20 == 0
  {
    score := 0;
    if |password| >= MinPasswordLength {
      score := score + 20;
    }
    if HasUpper(password) {
      score := score + 20;
    }
    if HasLower(password) {
      score := score + 20;
    }
    if HasDigit(password) {
      score := score + 20;
    }
    if HasSpecial(password) {
      score := score + 20;
    }
  }

  /** The helper text for a score: Strong from 80, Good from 60, Moderate from 40, Weak below. */
  function StrengthLabel(score: int): (text: string)
    ensures text == "Strong password" <==> score >= 80
    ensures text == "Good password" <==> 60 <= score < 80
    ensures text == "Moderate password" <==> 40 <= score < 60
    ensures text == "Weak password" <==> score < 40
  {
    if score >= 80 then "Strong password"
    else if score >= 60 then "Good password"
    else if score >= 40 then "Moderate password"
    else "Weak password"
  }

  method UpdatePasswordStrengthIndicator(password: string) returns (helperText: string)
    ensures helperText == StrengthLabel(20 * CriteriaMet(password))
  {
    var strength := CalculatePasswordStrength(password);
    helperText := StrengthLabel(strength);
  }

  /**
   * The password field's validation with its side effect: the strength helper
   * text is written only when the password is accepted, and then it always
   * reads "Strong password"; otherwise the helper text is left as it was.
   */
  method ValidatePasswordField(password: string) returns (check: FieldCheck, helperText: Option<string>)
    ensures check == ValidatePassword(password)
    ensures helperText.Some? <==> check == Accepted
    ensures helperText.Some? ==> helperText.value == "Strong password"
  {
    check := ValidatePassword(password);
    helperText := None;
    if check == Accepted {
      AcceptedPasswordScoresFull(password);
      var text := UpdatePasswordStrengthIndicator(password);
      helperText := Some(text);
    }
  }

  /**
   * Editing the password re-validates it and then re-validates the
   * confirmation against the new password.
   */
  method PasswordEdited(password: string, confirmPassword: string)
    returns (check: FieldCheck, helperText: Option<string>, confirmCheck: FieldCheck)
    ensures check == ValidatePassword(password)
    ensures helperText.Some? <==> check == Accepted
    ensures helperText.Some? ==> helperText.value == "Strong password"
    ensures confirmCheck == ValidateConfirmPassword(confirmPassword, password)
  {
    check, helperText := ValidatePasswordField(password);
    confirmCheck := ValidateConfirmPassword(confirmPassword, password);
  }

  /**
   * A non-empty ASCII password meets at least one criterion: every ASCII
   * character is an uppercase letter, a lowercase letter, a digit or special.
   * Beyond ASCII this fails in the app, where a letter such as U+4E2D is
   * neither upper nor lower case yet counts as a letter, so it scores nothing.
   */
  lemma NonEmptyPasswordScores(p: string)
    requires p != []
    requires forall i :: 0 <= i < |p| ==> p[i] < 128 as char
    ensures CriteriaMet(p) >= 1
  {
    if !IsLetterOrDigit(p[0]) {
      assert HasSpecial(p);
    } else if IsUpper(p[0]) {
      assert HasUpper(p);
    } else if IsLower(p[0]) {
      assert HasLower(p);
    } else {
      assert HasDigit(p);
    }
  }

  /** A password the validator accepts meets all five criteria, so its score is 100. */
  lemma AcceptedPasswordScoresFull(p: string)
    requires ValidatePassword(p) == Accepted
    ensures CriteriaMet(p) == 5
    ensures StrengthLabel(20 * CriteriaMet(p)) == "Strong password"
  {
  }

  lemma ShortLowercaseScore()
    ensures CriteriaMet("abc") == 1
  {
    assert IsLower("abc"[0]);
    assert !HasUpper("abc") && !HasDigit("abc") && !HasSpecial("abc");
  }

  lemma FullScoreExample()
    ensures CriteriaMet("Abc12345!") == 5
    ensures ValidatePassword("Abc12345!") == Accepted
  {
    var p := "Abc12345!";
    assert IsUpper(p[0]) && IsLower(p[1]) && IsDigit(p[3]) && !IsLetterOrDigit(p[8]);
  }

  // The whole form.

  datatype SignupForm = SignupForm(email: string, username: string, password: string, confirmPassword: string)

  /** The verdict of every field: all four validators run, each field shows its own error. */
  datatype SignupReport = SignupReport(email: FieldCheck, username: FieldCheck, password: FieldCheck, confirmPassword: FieldCheck)
  {
    predicate AllAccepted() {
      email == Accepted && username == Accepted && password == Accepted && confirmPassword == Accepted
    }
  }

  function ValidateForm(form: SignupForm, storedEmail: Option<string>, storedUsername: Option<string>): (report: SignupReport)
    ensures report.AllAccepted() <==>
      && EmailAddress(form.email) && storedEmail != Some(form.email)
      && |form.username| >= MinUsernameLength && UsernamePattern(form.username) && storedUsername != Some(form.username)
      && |form.password| >= MinPasswordLength && HasUpper(form.password) && HasLower(form.password)
      && HasDigit(form.password) && HasSpecial(form.password)
      && form.confirmPassword == form.password
    ensures report.email == ValidateEmail(form.email, storedEmail)
    ensures report.username == ValidateUsername(form.username, storedUsername)
    ensures report.password == ValidatePassword(form.password)
    ensures report.confirmPassword == ValidateConfirmPassword(form.confirmPassword, form.password)
  {
    SignupReport(
      ValidateEmail(form.email, storedEmail),
      ValidateUsername(form.username, storedUsername),
      ValidatePassword(form.password),
      ValidateConfirmPassword(form.confirmPassword, form.password))
  }

  /** Writes the account: the three credentials and the registration date; nothing else is touched. */
  method AttemptSignup(prefs: Store, form: SignupForm)
    modifies prefs
    ensures prefs.email == Some(form.email)
    ensures prefs.username == Some(form.username)
    ensures prefs.password == Some(form.password)
    ensures prefs.registrationDate == Some(RegistrationDate)
    ensures unchanged(prefs`transactions, prefs`monthlyBudget, prefs`isLoggedIn, prefs`lastLoginDate, prefs`currentUser)
  {
    prefs.email := Some(form.email);
    prefs.username := Some(form.username);
    prefs.password := Some(form.password);
    prefs.registrationDate := Some(RegistrationDate);
  }

  /**
   * The sign-up button: validate every field, and register only when all are
   * accepted. A rejected form leaves the store as it was.
   */
  method SignupClicked(prefs: Store, form: SignupForm) returns (report: SignupReport)
    modifies prefs
    ensures report == ValidateForm(form, old(prefs.email), old(prefs.username))
    ensures report.AllAccepted() ==>
      && prefs.email == Some(form.email) && prefs.username == Some(form.username)
      && prefs.password == Some(form.password) && prefs.registrationDate == Some(RegistrationDate)
    ensures !report.AllAccepted() ==>
      unchanged(prefs`email, prefs`username, prefs`password, prefs`registrationDate)
    ensures unchanged(prefs`transactions, prefs`monthlyBudget, prefs`isLoggedIn, prefs`lastLoginDate, prefs`currentUser)
  {
    report := ValidateForm(form, prefs.email, prefs.username);
    if report.AllAccepted() {
      AttemptSignup(prefs, form);
    }
  }

  /** Registering the same email twice is refused: after a sign-up, the same form is rejected on its email. */
  lemma SecondSignupRejected(form: SignupForm, storedUsername: Option<string>)
    ensures !ValidateForm(form, Some(form.email), storedUsername).AllAccepted()
  {
  }
}

=== FILE: Text.dfy ===
/**
 * String helpers the screens rely on: Kotlin's `split` with a one-character
 * literal delimiter, Kotlin's `String.compareTo` ordering, and the character
 * classes the validators test (restricted to ASCII).
 */
module Text {

  /** Kotlin's split on one delimiter: every part in order, empty and trailing parts included. */
  function Split(s: string, d: char): (parts: seq<string>)
    ensures |parts| >= 1
    decreases |s|
  {
    if s == [] then [""]
    else
      var rest := Split(s[1..], d);
      assert s == [s[0]] + s[1..];
      if s[0] == d then [""] + rest
      else [[s[0]] + rest[0]] + rest[1..]
  }

  /** There is one more part than there are delimiters, and no part holds a delimiter. */
  lemma {:induction false} SplitParts(s: string, d: char)
    ensures |Split(s, d)| == multiset(s)[d] + 1
    ensures forall i :: 0 <= i < |Split(s, d)| ==> d !in Split(s, d)[i]
    decreases |s|
  {
    if s != [] {
      SplitParts(s[1..], d);
      assert s == [s[0]] + s[1..];
      var rest := Split(s[1..], d);
      if s[0] != d {
        assert Split(s, d)[0] == [s[0]] + rest[0];
        forall i | 1 <= i < |Split(s, d)| ensures d !in Split(s, d)[i] {
          assert Split(s, d)[i] == rest[i];
        }
      }
    }
  }

  /** The inverse of `Split`: the parts glued back with the delimiter between them. */
  function Join(parts: seq<string>, d: char): string
    requires |parts| >= 1
    decreases |parts|
  {
    if |parts| == 1 then parts[0] else parts[0] + [d] + Join(parts[1..], d)
  }

  /** Splitting loses nothing: joining the parts gives the original string back. */
  lemma {:induction false} JoinSplit(s: string, d: char)
    ensures Join(Split(s, d), d) == s
    decreases |s|
  {
    if s != [] {
      var rest := Split(s[1..], d);
      JoinSplit(s[1..], d);
      if s[0] == d {
        JoinEmptyHead(rest, d);
      } else {
        JoinExtendHead(s[0], rest, d);
      }
      assert s == [s[0]] + s[1..];
    }
  }

  lemma JoinEmptyHead(parts: seq<string>, d: char)
    requires |parts| >= 1
    ensures Join([""] + parts, d) == [d] + Join(parts, d)
  {
    assert ([""] + parts)[1..] == parts;
  }

  lemma JoinExtendHead(c: char, parts: seq<string>, d: char)
    requires |parts| >= 1
    ensures Join([[c] + parts[0]] + parts[1..], d) == [c] + Join(parts, d)
  {
    var ext := [[c] + parts[0]] + parts[1..];
    if |parts| > 1 {
      assert ext[1..] == parts[1..];
    }
  }

  /** A string without the delimiter is a single part. */
  lemma {:induction false} SplitWithoutDelimiter(s: string, d: char)
    requires d !in s
    ensures Split(s, d) == [s]
    decreases |s|
  {
    if s != [] {
      SplitWithoutDelimiter(s[1..], d);
      assert s == [s[0]] + s[1..];
    }
  }

  /** A delimiter-free head followed by the delimiter becomes its own first part. */
  lemma {:induction false} SplitAfterPart(a: string, d: char, rest: string)
    requires d !in a
    ensures Split(a + [d] + rest, d) == [a] + Split(rest, d)
    decreases |a|
  {
    if a == [] {
      assert a + [d] + rest == [d] + rest;
      assert ([d] + rest)[1..] == rest;
    } else {
      var s := a + [d] + rest;
      assert s[0] == a[0] && s[0] != d;
      assert s[1..] == a[1..] + [d] + rest;
      SplitAfterPart(a[1..], d, rest);
      var tail := Split(s[1..], d);
      assert tail == [a[1..]] + Split(rest, d);
      assert Split(s, d) == [[a[0]] + tail[0]] + tail[1..];
      assert [a[0]] + a[1..] == a;
    }
  }

  /** Joining delimiter-free parts and splitting again gives the parts back. */
  lemma {:induction false} SplitJoin(parts: seq<string>, d: char)
    requires |parts| >= 1
    requires forall i :: 0 <= i < |parts| ==> d !in parts[i]
    ensures Split(Join(parts, d), d) == parts
    decreases |parts|
  {
    if |parts| == 1 {
      SplitWithoutDelimiter(parts[0], d);
    } else {
      SplitJoin(parts[1..], d);
      SplitAfterPart(parts[0], d, Join(parts[1..], d));
      assert parts == [parts[0]] + parts[1..];
    }
  }

  /**
   * `a` is at or before `b` in Kotlin's string order: the first differing
   * character decides, and a proper prefix sorts first. Characters compare by
   * code point, which matches Kotlin's comparison of UTF-16 code units on text
   * within the Basic Multilingual Plane.
   */
  predicate LexLeq(a: string, b: string)
    decreases |a|
  {
    a == [] || (b != [] && (a[0] < b[0] || (a[0] == b[0] && LexLeq(a[1..], b[1..]))))
  }

  /** `a` strictly before `b` in the same order. */
  predicate LexLess(a: string, b: string) {
    LexLeq(a, b) && a != b
  }

  lemma {:induction false} LexLeqReflexive(a: string)
    ensures LexLeq(a, a)
    decreases |a|
  {
    if a != [] {
      LexLeqReflexive(a[1..]);
    }
  }

  lemma {:induction false} LexLeqTotal(a: string, b: string)
    ensures LexLeq(a, b) || LexLeq(b, a)
    decreases |a|
  {
    if a != [] && b != [] && a[0] == b[0] {
      LexLeqTotal(a[1..], b[1..]);
    }
  }

  lemma {:induction false} LexLeqAntisymmetric(a: string, b: string)
    requires LexLeq(a, b) && LexLeq(b, a)
    ensures a == b
    decreases |a|
  {
    if a != [] && b != [] {
      LexLeqAntisymmetric(a[1..], b[1..]);
      assert a == [a[0]] + a[1..];
      assert b == [b[0]] + b[1..];
    }
  }

  lemma {:induction false} LexLeqTransitive(a: string, b: string, c: string)
    requires LexLeq(a, b) && LexLeq(b, c)
    ensures LexLeq(a, c)
    decreases |a|
  {
    if a != [] && b != [] && c != [] && a[0] == b[0] && b[0] == c[0] {
      LexLeqTransitive(a[1..], b[1..], c[1..]);
    }
  }

  /** Two strings ordered one way are never strictly ordered the other way. */
  lemma LexLeqNotLess(a: string, b: string)
    requires LexLeq(a, b)
    ensures !LexLess(b, a)
  {
    if LexLess(b, a) {
      LexLeqAntisymmetric(a, b);
    }
  }

  predicate IsUpper(c: char) { 'A' <= c <= 'Z' }
  predicate IsLower(c: char) { 'a' <= c <= 'z' }
  predicate IsDigit(c: char) { '0' <= c <= '9' }
  /** `[a-zA-Z0-9]`; the model's stand-in for Kotlin's `isLetterOrDigit`, which also admits non-ASCII letters and digits. */
  predicate IsLetterOrDigit(c: char) { IsUpper(c) || IsLower(c) || IsDigit(c) }
}

=== FILE: Transactions.dfy ===
/**
 * The transaction list screen: the filtered, date-sorted listing of the
 * stored records and the delete action with its budget adjustment.
 */
module Transactions {
  import opened Wrappers
  import opened Text
  import opened Amounts
  import opened Records
  import opened Preferences

  /** One row of the list, with the record it came from. */
  datatype TransactionItem = TransactionItem(kind: string, description: string, date: string, amount: real, rawData: string)

  /** One record turned into a row: parts 0 to 3, the amount parsed, the record kept as `rawData`. */
  function DecodeItem(raw: string): (r: Result<TransactionItem, Fault>)
    ensures r.Ok? <==> AmountOf(raw).Ok?
    ensures !HasFields(raw, 4) ==> r == Err(MissingField)
    ensures r.Err? ==> r.error == AmountOf(raw).error
    ensures r.Ok? ==>
      && r.value.rawData == raw
      && r.value.amount == AmountOf(raw).value
      && [r.value.kind, r.value.description, r.value.date] == Fields(raw)[..3]
  {
    match AmountOf(raw)
    case Err(e) => Err(e)
    case Ok(a) =>
      var data := Fields(raw);
      Ok(TransactionItem(data[0], data[1], data[2], a, raw))
  }

  /** The raw strings of the items, in order. */
  function RawData(items: seq<TransactionItem>): seq<string>
  {
    seq(|items|, k requires 0 <= k < |items| => items[k].rawData)
  }

  /** `displayTransactions(filterType)` on the records in iteration order `order`. */
  function Listing(order: seq<string>, filter: Option<string>): Result<seq<TransactionItem>, Fault>
  {
    SortAndDecode(KeepType(order, filter))
  }

  /** The listing's second half on the selected records: sort them newest first by their date part, then decode each one. */
  function SortAndDecode(selected: seq<string>): Result<seq<TransactionItem>, Fault>
  {
    if |selected| >= 2 && exists r | r in selected :: !HasFields(r, 3) then Err(MissingField)
    else DecodeAll(SortedByDescendingDate(selected), DecodeItem)
  }

  /** Decoding a list of records fails exactly on a record without a readable amount. */
  lemma DecodeItemsFailsOnBadRecord(rs: seq<string>)
    ensures DecodeAll(rs, DecodeItem).Ok? <==> forall r :: r in rs ==> AmountOf(r).Ok?
    ensures DecodeAll(rs, DecodeItem).Err? ==> exists r :: r in rs && AmountOf(r) == Err(DecodeAll(rs, DecodeItem).error)
  {
    var result := DecodeAll(rs, DecodeItem);
    if result.Ok? {
      forall r | r in rs ensures AmountOf(r).Ok? {
        var k :| 0 <= k < |rs| && rs[k] == r;
        assert DecodeItem(rs[k]).Ok?;
      }
    } else {
      var i :| 0 <= i < |rs| && DecodeItem(rs[i]) == Err(result.error);
      assert rs[i] in rs;
    }
  }

  lemma SortAndDecodeFailsOnBadRecord(selected: seq<string>)
    ensures SortAndDecode(selected).Ok? <==> forall r :: r in selected ==> AmountOf(r).Ok?
    ensures SortAndDecode(selected).Err? ==> exists r :: r in selected && AmountOf(r) == Err(SortAndDecode(selected).error)
  {
    if |selected| >= 2 && exists r | r in selected :: !HasFields(r, 3) {
      var r :| r in selected && !HasFields(r, 3);
      assert AmountOf(r) == Err(MissingField);
    } else {
      SortedByDescendingDateSpec(selected);
      DecodeItemsFailsOnBadRecord(SortedByDescendingDate(selected));
    }
  }

  /** The listing fails exactly when a selected record has no readable amount, and then with such a record's fault. */
  lemma ListingFailsOnBadRecord(order: seq<string>, filter: Option<string>)
    ensures Listing(order, filter).Ok? <==> forall r :: r in order && Selected(r, filter) ==> AmountOf(r).Ok?
    ensures Listing(order, filter).Err? ==>
      exists r :: r in order && Selected(r, filter) && AmountOf(r) == Err(Listing(order, filter).error)
  {
    KeepTypeMembers(order, filter);
    SortAndDecodeFailsOnBadRecord(KeepType(order, filter));
  }

  /**
   * A listing that succeeds holds every selected record exactly once and
   * nothing else, newest date first, each row carrying parts 0 to 3 of its
   * own record.
   */
  lemma ListingIsSortedSelection(order: seq<string>, filter: Option<string>)
    requires Listing(order, filter).Ok?
    ensures var items := Listing(order, filter).value;
      && (forall r :: multiset(RawData(items))[r] == if Selected(r, filter) then multiset(order)[r] else 0)
      && (forall i, j :: 0 <= i < j < |items| ==> LexLeq(items[j].date, items[i].date))
      && (forall k :: 0 <= k < |items| ==> DecodeItem(items[k].rawData) == Ok(items[k]))
  {
    SortAndDecodeSpec(KeepType(order, filter));
    KeepTypeCount(order, filter);
  }

  /** Sorting and decoding the selected records rearranges them newest first and decodes each one. */
  lemma SortAndDecodeSpec(selected: seq<string>)
    requires SortAndDecode(selected).Ok?
    ensures var items := SortAndDecode(selected).value;
      && multiset(RawData(items)) == multiset(selected)
      && (forall i, j :: 0 <= i < j < |items| ==> LexLeq(items[j].date, items[i].date))
      && (forall k :: 0 <= k < |items| ==> DecodeItem(items[k].rawData) == Ok(items[k]))
  {
    var sorted := SortedByDescendingDate(selected);
    SortedByDescendingDateSpec(selected);
    var items := DecodeAll(sorted, DecodeItem).value;
    assert RawData(items) == sorted;
    if |selected| >= 2 {
      forall i, j | 0 <= i < j < |items| ensures LexLeq(items[j].date, items[i].date) {
        assert items[i].date == DateOf(sorted[i]);
        assert items[j].date == DateOf(sorted[j]);
      }
    }
  }

  /** The empty state shows exactly when no stored record passes the filter. */
  lemma EmptyStateSpec(order: seq<string>, filter: Option<string>)
    ensures Listing(order, filter) == Ok([]) <==> forall r :: r in order ==> !Selected(r, filter)
  {
    ListingFailsOnBadRecord(order, filter);
    var selected := KeepType(order, filter);
    KeepTypeMembers(order, filter);
    KeepTypeEmpty(order, filter);
    if Listing(order, filter) == Ok([]) {
      ListingIsSortedSelection(order, filter);
      forall r | r in order ensures !Selected(r, filter) {
        assert multiset(RawData([]))[r] == 0;
      }
    }
  }

  /** Once a record is gone from the store, no listing shows it. */
  lemma DeletedRecordIsNotListed(order: seq<string>, filter: Option<string>, raw: string)
    requires raw !in order
    ensures Listing(order, filter).Ok? ==> forall k :: 0 <= k < |Listing(order, filter).value| ==>
      Listing(order, filter).value[k].rawData != raw
  {
    if Listing(order, filter).Ok? {
      ListingIsSortedSelection(order, filter);
      var items := Listing(order, filter).value;
      forall k | 0 <= k < |items| ensures items[k].rawData != raw {
        assert RawData(items)[k] == items[k].rawData;
        assert multiset(RawData(items))[items[k].rawData] > 0;
      }
    }
  }

  /**
   * `displayTransactions` on the store: each stored record that passes the
   * filter appears exactly once, nothing else appears, newest date first.
   */
  method DisplayTransactions(prefs: Store, filter: Option<string>) returns (shown: Result<seq<TransactionItem>, Fault>)
    ensures shown.Ok? <==> forall r :: r in prefs.transactions && Selected(r, filter) ==> AmountOf(r).Ok?
    ensures shown.Ok? ==> forall r ::
      multiset(RawData(shown.value))[r] == if r in prefs.transactions && Selected(r, filter) then 1 else 0
    ensures shown.Ok? ==> forall i, j :: 0 <= i < j < |shown.value| ==> LexLeq(shown.value[j].date, shown.value[i].date)
    ensures shown.Ok? ==> forall k :: 0 <= k < |shown.value| ==> DecodeItem(shown.value[k].rawData) == Ok(shown.value[k])
    ensures shown.Ok? ==> (shown.value == [] <==> forall r :: r in prefs.transactions ==> !Selected(r, filter))
  {
    var order := Enumerate(prefs.transactions);
    shown := Listing(order, filter);
    ListingFailsOnBadRecord(order, filter);
    if shown.Ok? {
      ListingIsSortedSelection(order, filter);
    }
    EmptyStateSpec(order, filter);
    forall r ensures r in order <==> r in prefs.transactions {
      assert r in order <==> multiset(order)[r] > 0;
    }
  }

  /**
   * `deleteTransaction(raw)`: drops `raw` from the set and moves the budget
   * back by its amount, down for an Income record and up for any other type,
   * whether or not `raw` was stored. A record without a readable amount stops
   * the screen before anything is written.
   */
  method DeleteTransaction(prefs: Store, raw: string) returns (outcome: Outcome<Fault>)
    modifies prefs
    ensures outcome.Pass? <==> AmountOf(raw).Ok?
    ensures outcome.Fail? ==>
      && outcome.error == AmountOf(raw).error
      && prefs.transactions == old(prefs.transactions)
      && prefs.monthlyBudget == old(prefs.monthlyBudget)
    ensures outcome.Pass? ==> prefs.transactions == old(prefs.transactions) - {raw}
    ensures outcome.Pass? && TypeOf(raw) == Income ==>
      prefs.monthlyBudget == Some(old(prefs.Budget()) - AmountOf(raw).value)
    ensures outcome.Pass? && TypeOf(raw) != Income ==>
      prefs.monthlyBudget == Some(old(prefs.Budget()) + AmountOf(raw).value)
    ensures unchanged(prefs`email, prefs`username, prefs`password, prefs`registrationDate)
    ensures unchanged(prefs`lastLoginDate, prefs`currentUser, prefs`isLoggedIn)
  {
    var remaining := prefs.transactions - {raw};
    var data := Fields(raw);
    if |data| < 4 {
      return Fail(MissingField);
    }
    var parsed := ParseAmount(data[3]);
    if parsed.None? {
      return Fail(BadAmount);
    }
    var amount := parsed.value;
    var budget := prefs.Budget();
    prefs.transactions := remaining;
    if data[0] == Income {
      prefs.monthlyBudget := Some(budget - amount);
    } else {
      prefs.monthlyBudget := Some(budget + amount);
    }
    outcome := Pass;
  }
}

=== FILE: Wrappers.dfy ===
/** Failure-compatible value types shared by every screen of the model. */
module Wrappers {

  /** A value that may be absent, as a preference key that was never written. */
  datatype Option<+T> = None | Some(value: T) {
    /** The stored value, or `default` when absent (SharedPreferences' `get*(key, default)`). */
    function GetOr(default: T): T {
      match this
      case Some(v) => v
      case None => default
    }
  }

  /** A computation that either produces a value or stops with an error. */
  datatype Result<+T, +E> = Ok(value: T) | Err(error: E)

  /** A computation with no value that either completes or stops with an error. */
  datatype Outcome<+E> = Pass | Fail(error: E)
}
